=== FILE: README.md ===
# Insurance-agent web app: the logic inside its event handlers

The Insurance-Agent-Web front end is a React application for insurance agents.
Its pages are mostly layout. Inside the event handlers, though, sit a dozen
small pieces of sequential logic, and this Dafny project models those:

- the calculator-text parser of the record-file drawer;
- the optimistic tag-list updates of the tag picker and the new-case dialog;
- the tag service and the multi-select box;
- the batch validator of the file-upload box;
- the KYC record-file list;
- the authentication context and the route guard;
- the e-mail / Google sign-in card and the password-change form;
- the user badge in the page header.

Each handler is one pure function, or one method where the source loops. Its
inputs are the state before the call, the user's input, and the outcome of
every remote call it makes (a `Result`). Its output is the state after the
call, together with anything the handler hands to the outside world: the
request it sends, the alert or toast it shows, the page it navigates to.

Modules follow the components:

- `CalculatorText`: `parseText` and its inner `extractMoney`.
- `RecordFileDrawer`: the drawer's text change, load and save.
- `KycModule`.
- `TagLists`: the shared `filter` / `map` by tag id.
- `TagService`.
- `TagSelector`.
- `NewProjectDialog`.
- `MultiSelect`.
- `FileUpload`.
- `Identity`: the provider's user record.
- `AuthContext`.
- `RouteGuard`: `ProtectedRoute` and the route table of `App`.
- `EmailAuth`.
- `PasswordChange`.
- `UserDisplay`: the `Layout` helpers.

Support modules model the JavaScript built-ins the handlers rely on:

- `Wrappers`: `Option` and `Result`.
- `Seqs`: `Array.prototype.filter`, the sub-sequence relation, and `splice(start, 1)` with its index clamping.
- `Text`: the `\s` / `trim` white-space set, `trim`, `includes`, `split` / `join` on one character, and UTF-16 `length`.

Some JavaScript operations are taken as parameters rather than defined:

- `toLowerCase` and `toUpperCase` become parameters `lower` and `upper`.
- Random ids and `Date.now()` timestamps become parameters.
- Every remote or identity-provider call is represented by its outcome, passed as a parameter.

The regular expression `/HK\$\s*([\d,]+)/` is replaced by a hand-written
scanner. The scanner is proved equal to a declarative description of the
leftmost, greedy match that the expression denotes.

## Model

| member | source | states |
|---|---|---|
| CalculatorText.ScanAtIsRegexMatch | src/pages/Projects/Detail/components/RecordFileDrawer.tsx:36 | the scanner's test at a position holds exactly when `/HK\$\s*([\d,]+)/` matches there, and the group it cuts out is the expression's group (greedy white space, longest digit/comma run) |
| CalculatorText.ExtractMoney | src/pages/Projects/Detail/components/RecordFileDrawer.tsx:35-38 | no match gives 0; otherwise the result is the group of the leftmost match with its commas dropped, read in base ten |
| CalculatorText.ExtractAfterCurrency | src/pages/Projects/Detail/components/RecordFileDrawer.tsx:36-37 | after text that cannot start an earlier match, `HK$`, white space and a digit/comma run followed by anything else reads as that run's value |
| CalculatorText.ParseAmountNaN | src/pages/Projects/Detail/components/RecordFileDrawer.tsx:37 | a run reads as NaN exactly when it holds commas only (`parseInt('')`) |
| CalculatorText.DecimalRoundTrip | src/pages/Projects/Detail/components/RecordFileDrawer.tsx:37 | reading back the decimal digits of any whole number gives that number |
| CalculatorText.GroupedDigits | src/pages/Projects/Detail/components/RecordFileDrawer.tsx:37 | dropping the commas of a thousands-grouped amount leaves only digits, whose value is the amount |
| CalculatorText.GroupedRoundTrip | src/pages/Projects/Detail/components/RecordFileDrawer.tsx:35-38 | any amount written with thousands commas after `HK$` (and optional white space) is read back as that amount |
| CalculatorText.DecimalAmountRoundTrip | src/pages/Projects/Detail/components/RecordFileDrawer.tsx:35-38 | any amount written in plain decimal after `HK$` is read back as that amount |
| CalculatorText.ExtractMoneyExample | src/pages/Projects/Detail/components/RecordFileDrawer.tsx:31 | the calculator's `HK$1,591,093` reads as 1591093 |
| CalculatorText.ExtractMoneyCommasOnly | src/pages/Projects/Detail/components/RecordFileDrawer.tsx:36-37 | `HK$` followed by commas only reads as NaN, not 0 |
| CalculatorText.ApplyLine | src/pages/Projects/Detail/components/RecordFileDrawer.tsx:42-58 | one line sets every field whose anchor it contains, each independently; the protection gap also needs a following non-empty line, and its amount is read from that line |
| CalculatorText.ParseLines | src/pages/Projects/Detail/components/RecordFileDrawer.tsx:41-59 | after the first n lines, a field is present iff one of those lines sets it, and its value comes from the last such line |
| CalculatorText.ParseText | src/pages/Projects/Detail/components/RecordFileDrawer.tsx:29-62 | a field is present iff some line of the text sets it; its value is the amount read for the last line that does |
| CalculatorText.NoAnchorNoFields | src/pages/Projects/Detail/components/RecordFileDrawer.tsx:33-59 | text containing none of the five anchors yields the empty map |
| CalculatorText.ProtectionGapNeedsNextLine | src/pages/Projects/Detail/components/RecordFileDrawer.tsx:42-46 | an anchor on the last line, or followed by an empty line, never sets the protection gap |
| CalculatorText.SingleLineFields | src/pages/Projects/Detail/components/RecordFileDrawer.tsx:47-58 | a one-line text sets exactly the non-gap fields whose anchors it contains, each to that line's amount |
| CalculatorText.FamilyDebtExample | src/pages/Projects/Detail/components/RecordFileDrawer.tsx:47-49 | `家庭債務 HK$120,000` gives exactly family debt = 120000 |
| CalculatorText.ProtectionGapExample | src/pages/Projects/Detail/components/RecordFileDrawer.tsx:42-46 | the anchor line followed by `HK$1,591,093` gives exactly protection gap = 1591093 |
| RecordFileDrawer.MergeParsed | src/pages/Projects/Detail/components/RecordFileDrawer.tsx:68 | the merged keys are the old keys plus the parsed ones; parsed keys take the new value, all other keys keep the old one |
| RecordFileDrawer.KeyInjective | src/pages/Projects/Detail/components/RecordFileDrawer.tsx:45-57 | distinct fields are stored under distinct keys |
| RecordFileDrawer.Load | src/pages/Projects/Detail/components/RecordFileDrawer.tsx:22-27 | opening a file copies its data, and its raw text or `''` when it has none; no file leaves the drawer as it was |
| RecordFileDrawer.TextChange | src/pages/Projects/Detail/components/RecordFileDrawer.tsx:64-69 | the text is stored; fields the new text sets are overwritten, every other key keeps its old value |
| RecordFileDrawer.TextWithoutAnchorsKeepsFigures | src/pages/Projects/Detail/components/RecordFileDrawer.tsx:64-69 | typing text without anchors never loses earlier figures |
| RecordFileDrawer.MergeIdempotent | src/pages/Projects/Detail/components/RecordFileDrawer.tsx:68 | merging the same parse twice equals merging it once |
| RecordFileDrawer.TextChangeIdempotent | src/pages/Projects/Detail/components/RecordFileDrawer.tsx:64-69 | the same text entered twice gives the same drawer as entering it once |
| RecordFileDrawer.Save | src/pages/Projects/Detail/components/RecordFileDrawer.tsx:71-90 | no file: nothing; success: the server's file; failure: the opened file with the drawer's data and raw text and every other field kept |
| RecordFileDrawer.FailedSaveAfterLoad | src/pages/Projects/Detail/components/RecordFileDrawer.tsx:22-27 | loading a file and saving it while the call fails hands the file back unchanged, except missing text returns as `''` |
| KycModule.LocalFile | src/pages/Projects/Detail/components/KYCModule.tsx:99-109 | the fallback file is exactly what the create request asked for, under the given id and project |
| KycModule.FindByType | src/pages/Projects/Detail/components/KYCModule.tsx:78 | finds the first file of the type; none iff no file has it |
| KycModule.CreateFile | src/pages/Projects/Detail/components/KYCModule.tsx:76-114 | an existing type keeps the list and opens the first file of that type, as `find` returns it; a new type appends exactly one file (the server's, or the local fallback) and opens it; the drawer is open afterwards |
| KycModule.CreateKeepsTypesUnique | src/pages/Projects/Detail/components/KYCModule.tsx:78-83 | one file per type stays one file per type, whenever a file the server returns has the requested type |
| KycModule.CreateAppendsFileOfType | src/pages/Projects/Detail/components/KYCModule.tsx:85-113 | a new type gains exactly one file; the local fallback always has the type, its fixed name, empty data and empty raw text, and the server's file has them when the server honours the request |
| KycModule.ReplaceById | src/pages/Projects/Detail/components/KYCModule.tsx:131 | same length; entries with the saved id become the saved file, the others are untouched |
| KycModule.UpdateFile | src/pages/Projects/Detail/components/KYCModule.tsx:130-132 | the list is replaced by id; selection and drawer are untouched |
| KycModule.FailedSaveKeepsDrawerData | src/pages/Projects/Detail/components/RecordFileDrawer.tsx:81-86 | when saving fails, the list holds the drawer's figures and text under the saved file's id |
| TagLists.WithoutId | src/components/shared/TagSelector.tsx:46 | no entry with the id is left, every other entry stays exactly as often as it occurred, and the result is an order-preserving sub-sequence |
| TagLists.WithoutIdUnique | src/components/shared/TagSelector.tsx:46 | those clauses determine the filter: any order-preserving sub-sequence that drops exactly the entries with the id is the filter's result |
| TagLists.WithoutIdMembers | src/components/shared/TagSelector.tsx:46 | a tag survives iff it was there and has another id, with its multiplicity kept |
| TagLists.WithoutAbsentId | src/components/shared/TagSelector.tsx:46 | removing an absent id is the identity |
| TagLists.WithoutIdConcat | src/components/shared/TagSelector.tsx:116 | removal by id distributes over concatenation |
| TagLists.ReplaceId | src/pages/Projects/NewProjectDialog.tsx:88-90 | same length; entries with the id become the new tag, others unchanged |
| TagLists.Names | src/pages/Projects/NewProjectDialog.tsx:114 | the names of the tags, same length and order |
| TagService.GetAllTags | src/services/tagService.ts:8-20 | each name n becomes {id: n, name: n}, same length and order; a failure is passed on unchanged |
| TagService.GetAllTagsRoundTrip | src/services/tagService.ts:12-15 | the names of the loaded tags are the names sent, and every id is its name |
| TagService.CreateTag | src/services/tagService.ts:25-36 | the tag carries the name the server returned as both id and name; a failure is passed on unchanged |
| TagService.DeleteTag | src/services/tagService.ts:41-48 | succeeds iff the API call did, with the API's error unchanged |
| TagService.ServiceTagsIdsAreNames | src/services/tagService.ts:12-15 | every tag the service hands out has id == name |
| TagSelector.SelectTag | src/components/shared/TagSelector.tsx:33-41 | a selected tag's id leaves the selection, every other entry staying in order and as often as before; an unselected tag is appended at the end |
| TagSelector.SelectTwiceRestores | src/components/shared/TagSelector.tsx:33-41 | selecting an unselected tag twice gives the selection back |
| TagSelector.ChooseListed | src/components/shared/TagSelector.tsx:213 | choosing a tag that is being deleted does nothing |
| TagSelector.RemoveTag | src/components/shared/TagSelector.tsx:43-47 | removes every entry with the id, keeps all other entries in order and with their multiplicity |
| TagSelector.BeginDelete | src/components/shared/TagSelector.tsx:53-56 | the id is marked as deleting and leaves the selection at once; every other selected entry stays, in order and as often as before |
| TagSelector.FinishDelete | src/components/shared/TagSelector.tsx:58-74 | the selection is untouched either way; success asks for a reload, failure alerts; the deleting mark goes |
| TagSelector.DeleteRemovalSticks | src/components/shared/TagSelector.tsx:53-73 | after a delete settles, with any server outcome, the tag is out of the selection |
| TagSelector.DeleteThroughService | src/components/shared/TagSelector.tsx:49-75 | over the tag service's delete: the tag leaves the selection, a successful call asks for a reload, a failed one raises the fixed alert, and the deleting mark goes |
| TagSelector.FindByName | src/components/shared/TagSelector.tsx:86 | the first available tag equal up to case; none iff there is no such tag |
| TagSelector.Plan | src/components/shared/TagSelector.tsx:77-94 | nothing for a blank search or a name being created; the first case-insensitive match if any; otherwise a new tag named by the trimmed search |
| TagSelector.Optimistic | src/components/shared/TagSelector.tsx:97-109 | the temporary tag is appended, its name marked as creating, the search cleared |
| TagSelector.CreateTag | src/components/shared/TagSelector.tsx:77-131 | no-op, reuse (append only if its id is not selected), or create settled from the pre-call selection: success adds the server tag, failure alerts; the creating mark is gone afterwards |
| TagSelector.CreateSuccessAppends | src/components/shared/TagSelector.tsx:113-118 | with a fresh temporary id, success gives pre-call selection ++ [server tag] |
| TagSelector.CreateFailureRollsBack | src/components/shared/TagSelector.tsx:119-123 | with a fresh temporary id, failure gives back the pre-call state (search cleared) |
| TagSelector.ReuseNeverCreates | src/components/shared/TagSelector.tsx:86-94 | a case-insensitive match creates nothing and leaves its id selected |
| TagSelector.FilteredTags | src/components/shared/TagSelector.tsx:133-135 | an order-preserving sub-sequence of the available tags that keeps every tag whose lower-cased name contains the lower-cased search, as often as it occurs, and no other tag |
| TagSelector.FilteredTagsMembers | src/components/shared/TagSelector.tsx:133-135 | an available tag is listed iff its lower-cased name contains the lower-cased search |
| TagSelector.EmptySearchListsAll | src/components/shared/TagSelector.tsx:133-135 | an empty search lists every available tag |
| TagSelector.ShowCreateOptionIffCreates | src/components/shared/TagSelector.tsx:77-94 | the create option shows (for a name not already being created) iff pressing it would create a new tag |
| NewProjectDialog.LoadTags | src/pages/Projects/NewProjectDialog.tsx:49-56 | loaded names are the service's names, ids equal names; a failure keeps the list |
| NewProjectDialog.AddOptimistic | src/pages/Projects/NewProjectDialog.tsx:75-81 | appends {id = name = tagName} after the old list |
| NewProjectDialog.SettleCreateTag | src/pages/Projects/NewProjectDialog.tsx:84-98 | success: same length, entries with id == name become the server tag; failure: those entries are removed, every other entry stays in order and as often as before, and the error is re-thrown unchanged |
| NewProjectDialog.CreateTag | src/pages/Projects/NewProjectDialog.tsx:73-99 | success: every earlier entry is kept, those whose id is the name becoming the server's tag, and the server's tag is appended; failure: every entry with the name as id is gone, the rest kept; the result is the service's |
| NewProjectDialog.CreateFailureRollsBack | src/pages/Projects/NewProjectDialog.tsx:93-98 | a failed create of a new name leaves the list as it was |
| NewProjectDialog.CreateKeepsIdsAreNames | src/pages/Projects/NewProjectDialog.tsx:75-96 | id == name holds for every tag after a create when it held before and the service built the tag |
| NewProjectDialog.Payload | src/pages/Projects/NewProjectDialog.tsx:110-116 | trimmed title, client name and summary, the selected names in order, status draft |
| NewProjectDialog.PayloadTrimmed | src/pages/Projects/NewProjectDialog.tsx:110-113 | the request's text fields have nothing left to trim |
| NewProjectDialog.Submit | src/pages/Projects/NewProjectDialog.tsx:101-137 | sends iff the form is valid; success resets the form, closes it, notifies and navigates to `/projects/<id>`; otherwise the form is kept |
| NewProjectDialog.PolishSummary | src/pages/Projects/NewProjectDialog.tsx:58-71 | a blank or already-polishing summary, or a failed call, keeps it; otherwise the polished text replaces it |
| NewProjectDialog.PolishKeepsRequest | src/pages/Projects/NewProjectDialog.tsx:58-71 | polishing changes only the summary: validity, title, client, tags and status of the request stay; the request's summary becomes the trimmed polished text exactly when the polish ran and succeeded |
| MultiSelect.Unselect | src/components/ui/multi-select.tsx:47-49 | the value is gone, every other value stays as often as it occurred, and the result is an order-preserving sub-sequence |
| MultiSelect.UnselectCounts | src/components/ui/multi-select.tsx:47-49 | every other value keeps its multiplicity |
| MultiSelect.UnselectUnique | src/components/ui/multi-select.tsx:47-49 | those clauses determine the filter: any order-preserving sub-sequence that drops exactly the value is the filter's result |
| MultiSelect.Toggle | src/components/ui/multi-select.tsx:108-112 | a present value is removed everywhere with every other value kept in order and multiplicity; an absent one is appended |
| MultiSelect.ToggleTwiceRestores | src/components/ui/multi-select.tsx:108-112 | toggling an absent value twice gives the selection back |
| MultiSelect.ToggleKeepsNoDup | src/components/ui/multi-select.tsx:109-111 | a duplicate-free selection stays duplicate-free |
| MultiSelect.ClearAll | src/components/ui/multi-select.tsx:130-131 | nothing stays selected |
| FileUpload.SizeErrors | src/components/general/ui/file-upload.tsx:49-53 | one size error per oversize file, the k-th naming the k-th oversize file; none iff every file fits |
| FileUpload.DefaultSizeBoundary | src/components/general/ui/file-upload.tsx:25 | with the default 50 MB limit, 52428800 bytes pass and one byte more gives one error naming the file |
| FileUpload.ValidateFiles | src/components/general/ui/file-upload.tsx:40-58 | too many files: no valid file and exactly one error; otherwise the fitting files in order plus one error per oversize file, the counts summing to the batch size |
| FileUpload.NoErrorsKeepsAll | src/components/general/ui/file-upload.tsx:49-55 | a batch without size errors is kept whole |
| FileUpload.HandleFiles | src/components/general/ui/file-upload.tsx:60-85 | no list, an empty batch or any validation error keeps the selection; a batch within the count limit with oversize files alerts exactly its size errors, in order; a valid batch that would push the total over the limit is refused with the total-count alert; otherwise the batch is appended whole; a selection within the limit stays within it |
| FileUpload.RemoveFile | src/components/general/ui/file-upload.tsx:114-118 | removes exactly the element at the (splice-clamped) index, others in order |
| FileUpload.RemoveFileCounts | src/components/general/ui/file-upload.tsx:114-118 | an index in range removes one file and keeps every other as often as before |
| AuthContext.OnAuthChanged | src/contexts/AuthContext.tsx:26-29 | stores the reported user and ends loading |
| AuthContext.Value | src/contexts/AuthContext.tsx:34-39 | authenticated iff there is a user; profile setup needed iff there is a user without a display name |
| AuthContext.InitialValueIsDefault | src/contexts/AuthContext.tsx:12-23 | a fresh provider shows exactly the default context |
| AuthContext.Replay | src/contexts/AuthContext.tsx:26-29 | after any callbacks the last user is stored and loading is over; loading never comes back |
| AuthContext.ReplayConcat | src/contexts/AuthContext.tsx:26-29 | callbacks compose: replaying a ++ b is replaying a then b |
| AuthContext.LoadingEndsForGood | src/contexts/AuthContext.tsx:26-29 | once one callback has run, no later run of callbacks brings loading back |
| RouteGuard.OnAuthChanged | src/App.tsx:40-54 | signed in: authenticated, setup needed iff no display name; signed out: neither |
| RouteGuard.GuardAgreesWithContext | src/App.tsx:43-52 | the guard and the authentication context derive the same two flags |
| RouteGuard.Decide | src/App.tsx:58-70 | loading, then signed out to `/login`, then missing profile to `/profile-setup` except on that page, else render, in that order |
| RouteGuard.RedirectTargetsSettle | src/App.tsx:62-70 | a redirect lands on the login page or on a page the same state renders: no redirect loop |
| RouteGuard.Route | src/App.tsx:81-112 | `/login` is the only unguarded page; `/` redirects to `/overview` |
| RouteGuard.Visit | src/App.tsx:58-112 | unmatched paths show nothing; the login page always shows; a shown page is the route's page |
| RouteGuard.LoaderBeforeFirstCallback | src/App.tsx:35-38 | before the first callback every guarded page shows the loader |
| RouteGuard.SignedOutGoesToLogin | src/App.tsx:62-64 | signed out, every guarded page redirects to `/login` |
| RouteGuard.NamedUserSeesPage | src/App.tsx:70 | a user with a display name sees every guarded page |
| RouteGuard.UnnamedUserSetsUpProfile | src/App.tsx:66-70 | without a display name, other guarded pages redirect to `/profile-setup`, which itself renders |
| EmailAuth.EmailPasswordAuth | src/pages/Auth/components/EmailGoogleAuth.tsx:28-62 | a failure only sets the error; registration or an unverified sign-in goes to the verification screen; a verified sign-in reports success; loading always ends |
| EmailAuth.SendFailureSwallowed | src/pages/Auth/components/EmailGoogleAuth.tsx:34-49 | the outcome of sending the verification mail never matters |
| EmailAuth.GoogleAuth | src/pages/Auth/components/EmailGoogleAuth.tsx:64-77 | success is reported iff the popup sign-in succeeds, without a verification check |
| EmailAuth.CheckVerification | src/pages/Auth/components/EmailGoogleAuth.tsx:79-101 | no user or not verified: an error and no transition; verified: leave the verification screen and report success |
| EmailAuth.ResendVerification | src/pages/Auth/components/EmailGoogleAuth.tsx:103-120 | only the message changes: no user, sent, or the provider's error |
| EmailAuth.ToggleMode | src/pages/Auth/components/EmailGoogleAuth.tsx:227-228 | flips register / sign-in unless loading |
| EmailAuth.ToggleModeTwiceRestores | src/pages/Auth/components/EmailGoogleAuth.tsx:227-228 | pressing the switch twice gives the form back |
| EmailAuth.ScreenChangesOnlyForAReason | src/pages/Auth/components/EmailGoogleAuth.tsx:28-120 | the verification screen is entered only after a successful attempt and left only after a verified check; loading always ends; success never carries an error |
| PasswordChange.Classify | src/pages/Settings/AccountSettings.tsx:113-121 | the four error-code classes and their messages |
| PasswordChange.ClassifyDistinguishes | src/pages/Settings/AccountSettings.tsx:113-121 | only an unknown code shows the provider's message |
| PasswordChange.ChangePassword | src/pages/Settings/AccountSettings.tsx:79-125 | mismatch before length, both with no provider call and loading cleared; no user or address returns with loading still on; otherwise re-authentication, then the update; a failure of either is classified with the fields kept; success clears the fields and shows the success toast |
| PasswordChange.UpdateOnlyWhenValid | src/pages/Settings/AccountSettings.tsx:83-103 | a password update happens only for matching, long-enough passwords, after re-authentication with the current password |
| PasswordChange.UpdateWhenValid | src/pages/Settings/AccountSettings.tsx:95-110 | valid input, an address and a successful re-authentication always lead to the update; a successful update clears the fields and shows the success toast |
| UserDisplay.Initials | src/components/Layout.tsx:41-47 | no user: `U`; else the upper-cased first character of the display name, else of the address, else `U` |
| UserDisplay.LocalPart | src/components/Layout.tsx:51 | the prefix of the address before its first `@` |
| UserDisplay.DisplayName | src/components/Layout.tsx:49-52 | no user: empty; else the display name, else the address's local part, else `使用者`; never empty for a user |
| UserDisplay.InitialsMatchDisplayName | src/components/Layout.tsx:41-52 | when the shown name comes from the display name or the address, the initial is the upper-cased first character of that name |
| UserDisplay.LocalPartOfAddress | src/components/Layout.tsx:51 | the local part of `local@domain` is `local` |
| UserDisplay.NameFromAddress | src/components/Layout.tsx:51 | without a display name, `local@domain` shows as `local`, and as `使用者` when `local` is empty |
| UserDisplay.EmptyAddressFallsBack | src/components/Layout.tsx:51 | no or empty address gives `使用者` |

## Left out
- FileUpload.HandleFiles: the count limit is always a parameter; the component's default of 10 when none is given is not singled out.
- Rendering, animation, popover state and every JSX-only flag (`isSubmitting`, `isSaving`, the `passwordLoading` spinner beyond the flag itself) are not modelled: they do not affect the data. The new-case dialog's `open` flag is the exception: `NewProjectDialog.Form` keeps it, because a successful submit closes the dialog.
- Remote calls, identity-provider calls and `onAuthStateChanged` are not modelled as behaviour. Each appears only as an outcome parameter, so nothing is claimed about the server.
- Concurrent optimistic handlers are not modelled. Overlapping handlers and React's batching of state updates are out of scope: each handler is one atomic step from its starting state.
- `Date.now()` and `Math.random()` ids, and `new Date()` timestamps, are parameters. `TagSelector.CreateSuccessAppends` and `TagSelector.CreateFailureRollsBack` require the temporary id to be fresh.
- `lower` and `upper` stand for `toLowerCase` and `toUpperCase`, which are not defined here. `TagSelector.EmptySearchListsAll` assumes `lower("") == ""`.
- CalculatorText.ParseAmount: computes the exact integer, whereas `parseInt` returns a double and loses precision above 2^53.
- RouteGuard.Route: matches paths exactly. React Router's case-insensitive matching, trailing slashes and URL decoding are not modelled, and neither is the `*` not-found case (no route matches).
- UserDisplay.Initials: takes the first code point, whereas `charAt(0)` takes the first UTF-16 code unit. The two differ for characters outside the Basic Multilingual Plane.
- KycModule.CreateKeepsTypesUnique: requires that a file the server returns has the requested type. The source trusts the server for this.
- KycModule.CreateAppendsFileOfType: on the server path, it requires that the returned file honours the create request: the type, the fixed name, empty data and empty raw text. The source does not check the server's answer; only the local fallback is guaranteed to have these.
- KycModule.LocalFile: takes one timestamp for both `created_at` and `updated_at`. The source calls `new Date()` once for each, so the two may differ by the time between the calls.
- The file types the KYC module can create are the three it names: insurance needs, retirement budget, medical expense. The `RecordFile` and `RecordFileType` declarations the code imports are not part of this model.
- The optional `createdAt` of a tag is not modelled; none of the handlers reads it.
- File-size display (`formatFileSize`) uses floating-point logarithms and is not modelled.
- The text of the file-upload alerts, which interpolates numbers, is kept as structured values (`FileError`, `Alert`) rather than rendered strings.
- `console.error` logging is not modelled.
- The KYC module's demo records, the usage statistics, the chat pages, the document creator, the tutorials and the other pages outside these components are not modelled.

=== FILE: auth_context.dfy ===
/** The authentication context: the provider holds the current user and a
    loading flag, and derives whether the user is signed in and whether the
    profile still needs a display name. */
module AuthContext {
  import opened Wrappers
  import opened Identity

  /** The provider's own state. */
  datatype Provider = Provider(user: Option<User>, loading: bool)

  /** What the context hands to its consumers. */
  datatype ContextValue = ContextValue(user: Option<User>, loading: bool, isAuthenticated: bool, needsProfileSetup: bool)

  /** The value consumers see outside any provider. */
  const DefaultContext: ContextValue := ContextValue(None, true, false, false)

  /** The provider before the first auth callback. */
  const Initial: Provider := Provider(None, true)

  /** An auth callback: the reported user (or none) is stored, loading ends. */
  function OnAuthChanged(p: Provider, user: Option<User>): (r: Provider)
    ensures r.user == user && !r.loading
  {
    Provider(user, false)
  }

  /** The derived value. */
  function Value(p: Provider): (v: ContextValue)
    ensures v.user == p.user && v.loading == p.loading
    ensures v.isAuthenticated <==> p.user.Some?
    ensures v.needsProfileSetup <==> p.user.Some? && !HasDisplayName(p.user.value)
    ensures v.needsProfileSetup ==> v.isAuthenticated
  {
    ContextValue(p.user, p.loading, p.user.Some?,
                 if p.user.Some? then !HasDisplayName(p.user.value) else false)
  }

  /** A fresh provider shows exactly what the default context shows. */
  lemma InitialValueIsDefault()
    ensures Value(Initial) == DefaultContext
  {
  }

  /** A run of auth callbacks. */
  function Replay(p: Provider, events: seq<Option<User>>): (r: Provider)
    ensures |events| == 0 ==> r == p
    ensures |events| > 0 ==> r.user == events[|events| - 1] && !r.loading
    ensures !p.loading ==> !r.loading
    decreases |events|
  {
    if |events| == 0 then p
    else Replay(OnAuthChanged(p, events[0]), events[1..])
  }

  /** Once a callback has run, loading never comes back, and the context shows
      the last reported user. */
  lemma LoadingEndsForGood(events: seq<Option<User>>, more: seq<Option<User>>)
    requires |events| > 0
    ensures !Replay(Replay(Initial, events), more).loading
    ensures Replay(Initial, events + more) == Replay(Replay(Initial, events), more)
  {
    ReplayConcat(Initial, events, more);
  }

  lemma {:induction false} ReplayConcat(p: Provider, a: seq<Option<User>>, b: seq<Option<User>>)
    ensures Replay(p, a + b) == Replay(Replay(p, a), b)
    decreases |a|
  {
    if |a| > 0 {
      assert (a + b)[0] == a[0];
      assert (a + b)[1..] == a[1..] + b;
      ReplayConcat(OnAuthChanged(p, a[0]), a[1..], b);
    }
  }
}

=== FILE: calculator_text.dfy ===
/** The parser that turns text pasted from the external insurance-needs
    calculator into figures keyed by field (the `parseText` helper of the
    record-file drawer). The regular expression /HK\$\s*([\d,]+)/ is replaced
    by a hand-written scanner, specified by the match the expression denotes. */
module CalculatorText {
  import opened Wrappers
  import opened Seqs
  import opened Text
  import opened ProjectTypes

  const Currency: string := "HK$"

  predicate IsDigit(c: char) { '0' <= c <= '9' }

  /** The class `[\d,]`: an ASCII digit or a comma. */
  predicate IsAmountChar(c: char) { IsDigit(c) || c == ',' }

  /** The regular expression /HK\$\s*([\d,]+)/ matches `s` at `i` with its group
      at `s[j..e]`, both quantifiers taking the longest run, which is the match
      a backtracking engine reports first. */
  ghost predicate RegexMatch(s: string, i: int, j: int, e: int) {
    && OccursAt(s, Currency, i)
    && i + |Currency| <= j < e <= |s|
    && (forall k :: i + |Currency| <= k < j ==> IsJsSpace(s[k]))
    && (forall k :: j <= k < e ==> IsAmountChar(s[k]))
    && (e == |s| || !IsAmountChar(s[e]))
  }

  /** The match `String.prototype.match` returns: the one that starts first. */
  ghost predicate LeftmostMatch(s: string, i: int, j: int, e: int) {
    && RegexMatch(s, i, j, e)
    && forall i', j', e' :: i' < i ==> !RegexMatch(s, i', j', e')
  }

  ghost predicate HasMatch(s: string) {
    exists i, j, e :: RegexMatch(s, i, j, e)
  }

  /** End of the white-space run that starts at `k`. */
  function SpacesEnd(s: string, k: nat): (j: nat)
    requires k <= |s|
    ensures k <= j <= |s|
    ensures forall m :: k <= m < j ==> IsJsSpace(s[m])
    ensures j == |s| || !IsJsSpace(s[j])
    decreases |s| - k
  {
    if k == |s| || !IsJsSpace(s[k]) then k else SpacesEnd(s, k + 1)
  }

  /** End of the run of digits and commas that starts at `k`. */
  function AmountEnd(s: string, k: nat): (e: nat)
    requires k <= |s|
    ensures k <= e <= |s|
    ensures forall m :: k <= m < e ==> IsAmountChar(s[m])
    ensures e == |s| || !IsAmountChar(s[e])
    decreases |s| - k
  {
    if k == |s| || !IsAmountChar(s[k]) then k else AmountEnd(s, k + 1)
  }

  /** The scanner's test at one position: `HK$`, optional white space, then a
      digit or comma. */
  predicate ScanAt(s: string, i: nat) {
    && i + |Currency| <= |s|
    && s[i..i + |Currency|] == Currency
    && var j := SpacesEnd(s, i + |Currency|);
       j < |s| && IsAmountChar(s[j])
  }

  /** The scanner's test and the regular expression agree at every position,
      and the expression's group is the one the scanner cuts out. */
  lemma ScanAtIsRegexMatch(s: string, i: int, j: int, e: int)
    ensures RegexMatch(s, i, j, e) <==>
              0 <= i && ScanAt(s, i) && j == SpacesEnd(s, i + |Currency|) && e == AmountEnd(s, j)
  {
    if RegexMatch(s, i, j, e) {
      assert OccursAt(s, Currency, i);
      assert !IsJsSpace(s[j]);
    }
    if 0 <= i && ScanAt(s, i) && j == SpacesEnd(s, i + |Currency|) && e == AmountEnd(s, j) {
      assert OccursAt(s, Currency, i);
    }
  }

  /** The first position at or after `i` where the scanner's test succeeds. */
  function FindFrom(s: string, i: nat): (r: Option<nat>)
    ensures r.None? ==> forall k: nat :: i <= k ==> !ScanAt(s, k)
    ensures r.Some? ==> i <= r.value && ScanAt(s, r.value)
                        && forall k: nat :: i <= k < r.value ==> !ScanAt(s, k)
    decreases |s| - i
  {
    if i + |Currency| > |s| then None
    else if ScanAt(s, i) then Some(i)
    else FindFrom(s, i + 1)
  }

  /** The value of one ASCII digit. */
  function DigitValue(c: char): (v: nat)
    requires IsDigit(c)
    ensures v <= 9
  {
    c as int - '0' as int
  }

  /** `parseInt(d, 10)` for a string of ASCII digits, as a whole number. */
  function DecimalValue(d: string): nat
    requires forall k :: 0 <= k < |d| ==> IsDigit(d[k])
  {
    if |d| == 0 then 0
    else DecimalValue(d[..|d| - 1]) * 10 + DigitValue(d[|d| - 1])
  }

  predicate NotComma(c: char) { c != ',' }

  /** `parseInt(group.replace(/,/g, ''), 10)`: the commas are dropped and the
      digits read in base ten; no digit at all gives NaN. */
  function ParseAmount(group: string): Amount
    requires forall k :: 0 <= k < |group| ==> IsAmountChar(group[k])
  {
    var digits := Filter(group, NotComma);
    forall k | 0 <= k < |digits|
      ensures IsDigit(digits[k])
    {
      FilterCounts(group, NotComma, digits[k]);
      assert digits[k] in group && NotComma(digits[k]);
      var m :| 0 <= m < |group| && group[m] == digits[k];
      assert IsAmountChar(group[m]);
    }
    if |digits| == 0 then NaN else Whole(DecimalValue(digits))
  }

  /** When the scanner finds nothing, the regular expression does not match. */
  lemma NoScanNoMatch(line: string)
    requires FindFrom(line, 0).None?
    ensures !HasMatch(line)
  {
    forall i, j, e | RegexMatch(line, i, j, e)
      ensures false
    {
      ScanAtIsRegexMatch(line, i, j, e);
    }
  }

  /** The scanner's first hit is the leftmost match, and its group is the match's group. */
  lemma ScanFindsLeftmost(line: string, i: nat)
    requires FindFrom(line, 0) == Some(i)
    ensures var j := SpacesEnd(line, i + |Currency|);
      LeftmostMatch(line, i, j, AmountEnd(line, j))
    ensures HasMatch(line)
    ensures var j := SpacesEnd(line, i + |Currency|);
      forall i', j', e' :: LeftmostMatch(line, i', j', e') ==> i' == i && j' == j && e' == AmountEnd(line, j)
  {
    var j := SpacesEnd(line, i + |Currency|);
    ScanAtIsRegexMatch(line, i, j, AmountEnd(line, j));
    forall i', j', e' | i' < i
      ensures !RegexMatch(line, i', j', e')
    {
      ScanAtIsRegexMatch(line, i', j', e');
    }
    forall i', j', e' | LeftmostMatch(line, i', j', e')
      ensures i' == i && j' == j && e' == AmountEnd(line, j)
    {
      ScanAtIsRegexMatch(line, i', j', e');
    }
  }

  /** `extractMoney`: the amount after the first `HK$`, or 0 when the line has none. */
  function ExtractMoney(line: string): (m: Amount)
    ensures !HasMatch(line) ==> m == Whole(0)
    ensures forall i, j, e :: LeftmostMatch(line, i, j, e) ==> m == ParseAmount(line[j..e])
  {
    match FindFrom(line, 0)
    case None =>
      NoScanNoMatch(line);
      Whole(0)
    case Some(i) =>
      ScanFindsLeftmost(line, i);
      var j := SpacesEnd(line, i + |Currency|);
      ParseAmount(line[j..AmountEnd(line, j)])
  }

  /** Text written before the amount that holds no `H` cannot hide an earlier match,
      so `extractMoney` reads exactly the digits and commas written after `HK$`. */
  lemma ExtractAfterCurrency(prefix: string, spaces: string, group: string, rest: string)
    requires Currency[0] !in prefix
    requires forall k :: 0 <= k < |spaces| ==> IsJsSpace(spaces[k])
    requires |group| > 0 && forall k :: 0 <= k < |group| ==> IsAmountChar(group[k])
    requires rest == [] || !IsAmountChar(rest[0])
    ensures ExtractMoney(prefix + Currency + spaces + group + rest) == ParseAmount(group)
  {
    var s := prefix + Currency + spaces + group + rest;
    var i := |prefix|;
    var j := i + |Currency| + |spaces|;
    var e := j + |group|;
    assert s[i..i + |Currency|] == Currency;
    assert s[j..e] == group;
    assert forall k :: i + |Currency| <= k < j ==> s[k] == spaces[k - i - |Currency|];
    assert RegexMatch(s, i, j, e);
    forall i', j', e' | i' < i && RegexMatch(s, i', j', e')
      ensures false
    {
    }
    assert LeftmostMatch(s, i, j, e);
  }

  /** An amount reads as NaN exactly when it holds commas only. */
  lemma ParseAmountNaN(group: string)
    requires forall k :: 0 <= k < |group| ==> IsAmountChar(group[k])
    ensures ParseAmount(group) == NaN <==> forall k :: 0 <= k < |group| ==> group[k] == ','
  {
    var digits := Filter(group, NotComma);
    if exists k :: 0 <= k < |group| && group[k] != ',' {
      var k :| 0 <= k < |group| && group[k] != ',';
      FilterCounts(group, NotComma, group[k]);
      assert group[k] in digits;
    } else if |digits| > 0 {
      FilterCounts(group, NotComma, digits[0]);
    }
  }

  /** The character of a digit value. */
  function DigitChar(v: nat): (c: char)
    requires v <= 9
    ensures IsDigit(c) && DigitValue(c) == v
  {
    ('0' as int + v) as char
  }

  /** `String(n)`: the decimal digits of `n`. */
  function DecimalString(n: nat): (d: string)
    ensures |d| >= 1
    ensures forall k :: 0 <= k < |d| ==> IsDigit(d[k])
    decreases n
  {
    if n < 10 then [DigitChar(n)] else DecimalString(n / 10) + [DigitChar(n % 10)]
  }

  /** Reading back the decimal digits of `n` gives `n`. */
  lemma {:induction false} DecimalRoundTrip(n: nat)
    ensures DecimalValue(DecimalString(n)) == n
    decreases n
  {
    if n >= 10 {
      DecimalRoundTrip(n / 10);
      var d := DecimalString(n);
      assert d[..|d| - 1] == DecimalString(n / 10);
    }
  }

  function Pow10(k: nat): nat {
    if k == 0 then 1 else 10 * Pow10(k - 1)
  }

  lemma Distribute(x: int, p: int, y: int, c: int)
    ensures (x * p + y) * 10 + c == x * (10 * p) + (y * 10 + c)
  {
  }

  /** The value of a concatenation of digit strings. */
  lemma {:induction false} DecimalConcat(a: string, b: string)
    requires forall k :: 0 <= k < |a| ==> IsDigit(a[k])
    requires forall k :: 0 <= k < |b| ==> IsDigit(b[k])
    ensures DecimalValue(a + b) == DecimalValue(a) * Pow10(|b|) + DecimalValue(b)
    decreases |b|
  {
    if |b| == 0 {
      assert a + b == a;
    } else {
      var b', c := b[..|b| - 1], b[|b| - 1];
      var ab := a + b;
      assert ab[..|ab| - 1] == a + b';
      assert ab[|ab| - 1] == c;
      DecimalConcat(a, b');
      assert DecimalValue(ab) == DecimalValue(a + b') * 10 + DigitValue(c);
      assert DecimalValue(b) == DecimalValue(b') * 10 + DigitValue(c);
      Distribute(DecimalValue(a), Pow10(|b'|), DecimalValue(b'), DigitValue(c));
    }
  }

  /** The three digits of `v`, zero-padded. */
  function Pad3(v: nat): (d: string)
    requires v < 1000
    ensures |d| == 3 && forall k :: 0 <= k < 3 ==> IsDigit(d[k])
    ensures DecimalValue(d) == v
  {
    var h, t, u := v / 100, v / 10 % 10, v % 10;
    var d := [DigitChar(h), DigitChar(t), DigitChar(u)];
    var d1, d2 := d[..1], d[..2];
    assert d2[..1] == d1 && d1[..0] == [] && d[..2] == d2;
    assert DecimalValue(d1) == h;
    assert DecimalValue(d2) == h * 10 + t;
    assert DecimalValue(d) == (h * 10 + t) * 10 + u;
    assert v / 10 == h * 10 + t;
    d
  }

  /** `n` written with a comma between groups of three digits, as the calculator
      prints amounts (`1,591,093`). */
  function Grouped(n: nat): (g: string)
    ensures |g| >= 1 && forall k :: 0 <= k < |g| ==> IsAmountChar(g[k])
    decreases n
  {
    if n < 1000 then DecimalString(n) else Grouped(n / 1000) + "," + Pad3(n % 1000)
  }

  /** The digits of a grouped amount are the digits of its leading groups
      followed by its last three digits. */
  lemma GroupedFilterSplit(n: nat)
    requires n >= 1000
    ensures Filter(Grouped(n), NotComma) == Filter(Grouped(n / 1000), NotComma) + Pad3(n % 1000)
  {
    var hi, lo := Grouped(n / 1000), Pad3(n % 1000);
    calc {
      Filter(Grouped(n), NotComma);
      { assert Grouped(n) == (hi + ",") + lo; }
      Filter((hi + ",") + lo, NotComma);
      { FilterConcat(hi + ",", lo, NotComma); }
      Filter(hi + ",", NotComma) + Filter(lo, NotComma);
      { FilterConcat(hi, ",", NotComma); }
      Filter(hi, NotComma) + Filter(",", NotComma) + Filter(lo, NotComma);
      { FilterAllKept(lo, NotComma); assert Filter(",", NotComma) == []; }
      Filter(hi, NotComma) + lo;
    }
  }

  predicate AllDigits(d: string) {
    forall k :: 0 <= k < |d| ==> IsDigit(d[k])
  }

  /** Dropping the commas of a grouped amount leaves digits whose value is the amount. */
  lemma {:induction false} GroupedDigits(n: nat)
    ensures |Filter(Grouped(n), NotComma)| >= 1
    ensures AllDigits(Filter(Grouped(n), NotComma))
    ensures DecimalValue(Filter(Grouped(n), NotComma)) == n
    decreases n
  {
    if n < 1000 {
      FilterAllKept(DecimalString(n), NotComma);
      DecimalRoundTrip(n);
    } else {
      var dh, lo := Filter(Grouped(n / 1000), NotComma), Pad3(n % 1000);
      GroupedDigits(n / 1000);
      GroupedFilterSplit(n);
      assert AllDigits(dh + lo);
      DecimalConcat(dh, lo);
      assert Pow10(|lo|) == 1000;
      assert DecimalValue(dh + lo) == n / 1000 * 1000 + n % 1000;
    }
  }

  /** A grouped amount after `HK$` reads back as that amount. */
  lemma GroupedRoundTrip(n: nat, prefix: string, spaces: string, rest: string)
    requires Currency[0] !in prefix
    requires forall k :: 0 <= k < |spaces| ==> IsJsSpace(spaces[k])
    requires rest == [] || !IsAmountChar(rest[0])
    ensures ExtractMoney(prefix + Currency + spaces + Grouped(n) + rest) == Whole(n)
  {
    ExtractAfterCurrency(prefix, spaces, Grouped(n), rest);
    GroupedDigits(n);
  }

  /** A plain decimal amount after `HK$` reads back as that amount. */
  lemma DecimalAmountRoundTrip(n: nat, prefix: string, spaces: string, rest: string)
    requires Currency[0] !in prefix
    requires forall k :: 0 <= k < |spaces| ==> IsJsSpace(spaces[k])
    requires rest == [] || !IsAmountChar(rest[0])
    ensures ExtractMoney(prefix + Currency + spaces + DecimalString(n) + rest) == Whole(n)
  {
    var d := DecimalString(n);
    ExtractAfterCurrency(prefix, spaces, d, rest);
    ParseDigits(d);
    DecimalRoundTrip(n);
  }

  /** A run of digits without commas reads as its decimal value. */
  lemma ParseDigits(d: string)
    requires |d| > 0 && AllDigits(d)
    ensures ParseAmount(d) == Whole(DecimalValue(d))
  {
    assert forall k :: 0 <= k < |d| ==> NotComma(d[k]);
    FilterAllKept(d, NotComma);
  }

  /** The calculator's figure `HK$1,591,093` reads as 1591093. */
  lemma ExtractMoneyExample()
    ensures ExtractMoney("HK$1,591,093") == Whole(1591093)
  {
    assert Grouped(1591093) == "1,591,093";
    assert "HK$1,591,093" == [] + Currency + [] + Grouped(1591093) + [];
    GroupedRoundTrip(1591093, [], [], []);
  }

  /** `HK$` followed by commas only reads as NaN. */
  lemma ExtractMoneyCommasOnly()
    ensures ExtractMoney("HK$ ,,") == NaN
  {
    assert "HK$ ,," == [] + Currency + " " + ",," + [];
    ExtractAfterCurrency([], " ", ",,", []);
    ParseAmountNaN(",,");
  }

  /** The figures the parser looks for. */
  datatype Field = ProtectionGap | FamilyDebt | Mortgage | InvestmentValue | CurrentProtection

  /** The fixed phrase that marks each figure in the calculator's output. */
  function Anchor(f: Field): string {
    match f
    case ProtectionGap => "身故風險保障缺口"
    case FamilyDebt => "家庭債務"
    case Mortgage => "未償還按揭貸款"
    case InvestmentValue => "投資市值"
    case CurrentProtection => "人壽身故賠償額"
  }

  /** The property name each figure is stored under in a record file's data. */
  function Key(f: Field): string {
    match f
    case ProtectionGap => "protection_gap"
    case FamilyDebt => "family_debt"
    case Mortgage => "mortgage"
    case InvestmentValue => "investment_value"
    case CurrentProtection => "current_protection"
  }

  /** Line `i` sets field `f`: it holds the field's anchor, and for the
      protection gap, whose amount is printed on the following line, that line
      exists and is not empty. */
  predicate Fires(lines: seq<string>, i: nat, f: Field)
    requires i < |lines|
  {
    && Contains(lines[i], Anchor(f))
    && (f == ProtectionGap ==> i + 1 < |lines| && lines[i + 1] != "")
  }

  /** The line the amount of a firing field is read from. */
  function ValueLine(lines: seq<string>, i: nat, f: Field): string
    requires i < |lines| && Fires(lines, i, f)
  {
    if f == ProtectionGap then lines[i + 1] else lines[i]
  }

  function SetIfFires(lines: seq<string>, i: nat, f: Field, acc: map<Field, Amount>): (r: map<Field, Amount>)
    requires i < |lines|
    ensures forall g :: g in r <==> g in acc || (g == f && Fires(lines, i, f))
    ensures forall g :: g in r ==>
      r[g] == if g == f && Fires(lines, i, f) then ExtractMoney(ValueLine(lines, i, f)) else acc[g]
  {
    if Fires(lines, i, f) then acc[f := ExtractMoney(ValueLine(lines, i, f))] else acc
  }

  /** The body of the per-line callback: the five anchor checks in source order.
      Each field is decided by its own check, so one line may set several. */
  function ApplyLine(lines: seq<string>, i: nat, acc: map<Field, Amount>): (r: map<Field, Amount>)
    requires i < |lines|
    ensures forall f :: f in r <==> f in acc || Fires(lines, i, f)
    ensures forall f :: f in r ==>
      r[f] == if Fires(lines, i, f) then ExtractMoney(ValueLine(lines, i, f)) else acc[f]
  {
    var a1 := SetIfFires(lines, i, ProtectionGap, acc);
    var a2 := SetIfFires(lines, i, FamilyDebt, a1);
    var a3 := SetIfFires(lines, i, Mortgage, a2);
    var a4 := SetIfFires(lines, i, InvestmentValue, a3);
    SetIfFires(lines, i, CurrentProtection, a4)
  }

  /** Line `i` is the last of the first `n` lines that sets `f`. */
  ghost predicate LastFiring(lines: seq<string>, n: nat, i: int, f: Field)
    requires n <= |lines|
  {
    && 0 <= i < n
    && Fires(lines, i, f)
    && forall k :: i < k < n ==> !Fires(lines, k, f)
  }

  /** `r` holds exactly the fields some of the first `n` lines set. */
  ghost predicate KeysFromLines(lines: seq<string>, n: nat, r: map<Field, Amount>)
    requires n <= |lines|
  {
    forall f :: f in r <==> exists i :: 0 <= i < n && Fires(lines, i, f)
  }

  /** Each field's value in `r` is the amount read for its last firing line. */
  ghost predicate ValuesFromLastLine(lines: seq<string>, n: nat, r: map<Field, Amount>)
    requires n <= |lines|
  {
    forall f, i :: LastFiring(lines, n, i, f) ==>
      f in r && r[f] == ExtractMoney(ValueLine(lines, i, f))
  }

  /** Applying line `n - 1` keeps the key set in step with the lines read. */
  lemma ParseStepKeys(lines: seq<string>, n: nat, prev: map<Field, Amount>)
    requires 0 < n <= |lines|
    requires KeysFromLines(lines, n - 1, prev)
    ensures KeysFromLines(lines, n, ApplyLine(lines, n - 1, prev))
  {
    var r := ApplyLine(lines, n - 1, prev);
    forall f | exists i :: 0 <= i < n && Fires(lines, i, f)
      ensures f in r
    {
      var i :| 0 <= i < n && Fires(lines, i, f);
      if i < n - 1 {
        assert f in prev;
      }
    }
  }

  /** Applying line `n - 1` keeps every value read from its last firing line. */
  lemma ParseStepValues(lines: seq<string>, n: nat, prev: map<Field, Amount>)
    requires 0 < n <= |lines|
    requires ValuesFromLastLine(lines, n - 1, prev)
    ensures ValuesFromLastLine(lines, n, ApplyLine(lines, n - 1, prev))
  {
    var r := ApplyLine(lines, n - 1, prev);
    forall f, i | LastFiring(lines, n, i, f)
      ensures f in r && r[f] == ExtractMoney(ValueLine(lines, i, f))
    {
      if i < n - 1 {
        assert LastFiring(lines, n - 1, i, f);
      }
    }
  }

  /** The figures found in the first `n` lines. */
  function ParseLines(lines: seq<string>, n: nat): (r: map<Field, Amount>)
    requires n <= |lines|
    ensures forall f :: f in r <==> exists i :: 0 <= i < n && Fires(lines, i, f)
    ensures forall f, i :: LastFiring(lines, n, i, f) ==>
      f in r && r[f] == ExtractMoney(ValueLine(lines, i, f))
  {
    if n == 0 then map[]
    else
      var prev := ParseLines(lines, n - 1);
      ParseStepKeys(lines, n, prev);
      ParseStepValues(lines, n, prev);
      ApplyLine(lines, n - 1, prev)
  }

  /** The lines of the pasted text, split at line feeds. */
  function Lines(text: string): seq<string> {
    Split(text, '\n')
  }

  /** `parseText`: a field is present exactly when some line sets it, and its
      value is the amount read for the last line that does. */
  function ParseText(text: string): (data: map<Field, Amount>)
    ensures var lines := Lines(text);
      forall f :: f in data <==> exists i :: 0 <= i < |lines| && Fires(lines, i, f)
    ensures var lines := Lines(text);
      forall f, i :: LastFiring(lines, |lines|, i, f) ==>
        f in data && data[f] == ExtractMoney(ValueLine(lines, i, f))
  {
    var lines := Lines(text);
    ParseLines(lines, |lines|)
  }

  /** Text in which no anchor phrase occurs yields no field at all. */
  lemma NoAnchorNoFields(text: string)
    requires forall f :: !Contains(text, Anchor(f))
    ensures ParseText(text) == map[]
  {
    var lines := Lines(text);
    forall f, i | 0 <= i < |lines| && Fires(lines, i, f)
      ensures false
    {
      SplitPiecesContained(text, '\n', i);
      ContainsTrans(text, lines[i], Anchor(f));
    }
  }

  /** The protection gap is never read from the anchor's own line: an anchor on
      the last line, or followed by an empty line, sets nothing. */
  lemma ProtectionGapNeedsNextLine(text: string, i: nat)
    requires var lines := Lines(text);
      i < |lines| && Contains(lines[i], Anchor(ProtectionGap))
      && (i + 1 == |lines| || lines[i + 1] == "")
    ensures !Fires(Lines(text), i, ProtectionGap)
  {
  }

  /** A single line sets each field whose anchor it holds, except the protection
      gap, which needs a following line; every value is read from that line. */
  lemma SingleLineFields(text: string)
    requires '\n' !in text
    ensures forall f :: f in ParseText(text) <==> f != ProtectionGap && Contains(text, Anchor(f))
    ensures forall f :: f in ParseText(text) ==> ParseText(text)[f] == ExtractMoney(text)
  {
    var lines := Lines(text);
    assert lines == [text];
    forall f | f != ProtectionGap && Contains(text, Anchor(f))
      ensures f in ParseText(text) && ParseText(text)[f] == ExtractMoney(text)
    {
      assert LastFiring(lines, 1, 0, f);
    }
  }

  const FamilyDebtLine: string := "家庭債務 HK$120,000"

  lemma FamilyDebtLineAmount()
    ensures ExtractMoney(FamilyDebtLine) == Whole(120000)
  {
    var prefix := "家庭債務 ";
    assert Grouped(120000) == "120,000";
    assert FamilyDebtLine == prefix + Currency + [] + Grouped(120000) + [];
    GroupedRoundTrip(120000, prefix, [], []);
  }

  lemma FamilyDebtLineAnchors()
    ensures '\n' !in FamilyDebtLine
    ensures forall f :: f != ProtectionGap ==> (Contains(FamilyDebtLine, Anchor(f)) <==> f == FamilyDebt)
  {
    assert OccursAt(FamilyDebtLine, Anchor(FamilyDebt), 0);
    forall f | f != FamilyDebt && f != ProtectionGap
      ensures !Contains(FamilyDebtLine, Anchor(f))
    {
      if Contains(FamilyDebtLine, Anchor(f)) {
        ContainsFirstChar(FamilyDebtLine, Anchor(f));
      }
    }
  }

  /** `家庭債務 HK$120,000` sets the family debt to 120000 and nothing else. */
  lemma FamilyDebtExample(text: string)
    requires text == FamilyDebtLine
    ensures ParseText(text) == map[FamilyDebt := Whole(120000)]
  {
    FamilyDebtLineAnchors();
    FamilyDebtLineAmount();
    SingleLineFields(text);
  }

  const GapAnchorLine: string := "你目前的身故風險保障缺口"
  const GapAmountLine: string := "HK$1,591,093"

  lemma GapLinesAnchors()
    ensures '\n' !in GapAnchorLine && '\n' !in GapAmountLine
    ensures Contains(GapAnchorLine, Anchor(ProtectionGap))
    ensures forall f :: f != ProtectionGap ==> !Contains(GapAnchorLine, Anchor(f))
    ensures forall f :: !Contains(GapAmountLine, Anchor(f))
  {
    assert OccursAt(GapAnchorLine, Anchor(ProtectionGap), 4);
    forall f | f != ProtectionGap && Contains(GapAnchorLine, Anchor(f))
      ensures false
    {
      ContainsFirstChar(GapAnchorLine, Anchor(f));
    }
    forall f | Contains(GapAmountLine, Anchor(f))
      ensures false
    {
      ContainsFirstChar(GapAmountLine, Anchor(f));
    }
  }

  /** The two-line gap text splits into its two lines. */
  lemma GapTextLines(text: string)
    requires text == GapAnchorLine + "\n" + GapAmountLine
    ensures Lines(text) == [GapAnchorLine, GapAmountLine]
  {
    GapLinesAnchors();
    var lines := [GapAnchorLine, GapAmountLine];
    assert Join(lines, '\n') == text;
    SplitJoin(lines, '\n');
  }

  /** In the two gap lines only the first sets anything, and only the gap. */
  lemma GapLinesFire(lines: seq<string>)
    requires lines == [GapAnchorLine, GapAmountLine]
    ensures Fires(lines, 0, ProtectionGap)
    ensures forall f, i :: 0 <= i < 2 && Fires(lines, i, f) ==> f == ProtectionGap && i == 0
  {
    GapLinesAnchors();
  }

  /** The protection gap is read from the line after its anchor. */
  lemma ProtectionGapExample(text: string)
    requires text == GapAnchorLine + "\n" + GapAmountLine
    ensures ParseText(text) == map[ProtectionGap := Whole(1591093)]
  {
    GapTextLines(text);
    var lines := Lines(text);
    GapLinesFire(lines);
    var data := ParseText(text);
    assert LastFiring(lines, 2, 0, ProtectionGap);
    assert data[ProtectionGap] == ExtractMoney(GapAmountLine);
    ExtractMoneyExample();
    forall f | f in data
      ensures f == ProtectionGap
    {
      var i :| 0 <= i < |lines| && Fires(lines, i, f);
    }
  }
}

=== FILE: email_auth.dfy ===
/** The e-mail / Google sign-in card. It shows either the sign-in form or,
    once a verification mail went out, the verification screen; each handler
    clears the error and sets `loading` on entry and clears `loading` on every
    way out. Identity-provider calls are represented by their outcomes. */
module EmailAuth {
  import opened Wrappers
  import opened Identity

  datatype AuthForm = AuthForm(
    email: string,
    password: string,
    isRegistering: bool,
    error: Option<string>,
    loading: bool,
    verificationSent: bool,
    registeredEmail: Option<string>)

  /** A handler's effect: the state it leaves and whether it reported a
      successful sign-in to the page. */
  datatype Step = Step(form: AuthForm, loggedIn: bool)

  const NoUserError: string := "找不到使用者，請重新登入或重新註冊"
  const NotVerifiedError: string := "尚未驗證，請前往您的信箱確認（包含垃圾郵件）"
  const ResentNotice: string := "已重新發送驗證郵件，請檢查收件匣"

  /** What every handler does first. */
  function Enter(f: AuthForm): (r: AuthForm)
    ensures r.error.None? && r.loading
  {
    f.(error := None, loading := true)
  }

  /** The `finally` of every handler. */
  function Leave(f: AuthForm, loggedIn: bool): (r: Step)
    ensures !r.form.loading && r.loggedIn == loggedIn
  {
    Step(f.(loading := false), loggedIn)
  }

  /** The `catch` of every handler: the provider's message becomes the error. */
  function Fail(f: AuthForm, e: Failure): (r: Step)
    ensures r.form == f.(error := Some(e.message), loading := false) && !r.loggedIn
  {
    Leave(f.(error := Some(e.message)), false)
  }

  /** `handleEmailPasswordAuth`. `attempt` is the outcome of creating the account
      (when registering) or of signing in; `current` is the provider's current
      user after signing in; `send` is the verification mail's outcome, which
      never matters. */
  function EmailPasswordAuth(f: AuthForm, attempt: Result<(), Failure>, current: Option<User>,
                             send: Result<(), Failure>): (r: Step)
    ensures !r.form.loading
    ensures attempt.Err? ==> r == Fail(Enter(f), attempt.error)
    ensures attempt.Ok? && f.isRegistering ==>
      && r.form == f.(error := None, loading := false, verificationSent := true, registeredEmail := Some(f.email))
      && !r.loggedIn
    ensures attempt.Ok? && !f.isRegistering && current.Some? && !current.value.emailVerified ==>
      && r.form == f.(error := None, loading := false, verificationSent := true, registeredEmail := Some(f.email))
      && !r.loggedIn
    ensures attempt.Ok? && !f.isRegistering && (current.None? || current.value.emailVerified) ==>
      r == Step(f.(error := None, loading := false), true)
  {
    var f1 := Enter(f);
    match attempt
    case Err(e) => Fail(f1, e)
    case Ok(_) =>
      if f.isRegistering || (current.Some? && !current.value.emailVerified) then
        Leave(f1.(registeredEmail := Some(f.email), verificationSent := true), false)
      else
        Leave(f1, true)
  }

  /** Whether the verification mail could be sent makes no difference. */
  lemma SendFailureSwallowed(f: AuthForm, attempt: Result<(), Failure>, current: Option<User>,
                             a: Result<(), Failure>, b: Result<(), Failure>)
    ensures EmailPasswordAuth(f, attempt, current, a) == EmailPasswordAuth(f, attempt, current, b)
  {
  }

  /** `handleGoogleAuth`: a successful popup sign-in is reported at once, with no
      verification check. */
  function GoogleAuth(f: AuthForm, attempt: Result<(), Failure>): (r: Step)
    ensures !r.form.loading
    ensures r.loggedIn <==> attempt.Ok?
    ensures attempt.Ok? ==> r.form == f.(error := None, loading := false)
    ensures attempt.Err? ==> r == Fail(Enter(f), attempt.error)
  {
    match attempt
    case Ok(_) => Leave(Enter(f), true)
    case Err(e) => Fail(Enter(f), e)
  }

  /** `checkVerificationStatus`. `hasUser` says whether there is a current user;
      `reload` is the outcome of reloading it, carrying its verified flag. */
  function CheckVerification(f: AuthForm, hasUser: bool, reload: Result<bool, Failure>): (r: Step)
    ensures !r.form.loading
    ensures !hasUser ==> r == Step(f.(error := Some(NoUserError), loading := false), false)
    ensures hasUser && reload.Err? ==> r == Fail(Enter(f), reload.error)
    ensures hasUser && reload == Ok(true) ==>
      r == Step(f.(error := None, loading := false, verificationSent := false), true)
    ensures hasUser && reload == Ok(false) ==>
      r == Step(f.(error := Some(NotVerifiedError), loading := false), false)
  {
    var f1 := Enter(f);
    if !hasUser then Leave(f1.(error := Some(NoUserError)), false)
    else
      match reload
      case Err(e) => Fail(f1, e)
      case Ok(verified) =>
        if verified then Leave(f1.(verificationSent := false), true)
        else Leave(f1.(error := Some(NotVerifiedError)), false)
  }

  /** `resendVerification`: only the message changes. */
  function ResendVerification(f: AuthForm, hasUser: bool, send: Result<(), Failure>): (r: Step)
    ensures !r.loggedIn && r.form == f.(error := r.form.error, loading := false)
    ensures !hasUser ==> r.form.error == Some(NoUserError)
    ensures hasUser && send.Ok? ==> r.form.error == Some(ResentNotice)
    ensures hasUser && send.Err? ==> r.form.error == Some(send.error.message)
  {
    var f1 := Enter(f);
    if !hasUser then Leave(f1.(error := Some(NoUserError)), false)
    else
      match send
      case Ok(_) => Leave(f1.(error := Some(ResentNotice)), false)
      case Err(e) => Fail(f1, e)
  }

  /** The register / sign-in switch; the button is disabled while loading. */
  function ToggleMode(f: AuthForm): (r: AuthForm)
    ensures f.loading ==> r == f
    ensures !f.loading ==> r == f.(isRegistering := !f.isRegistering)
  {
    if f.loading then f else f.(isRegistering := !f.isRegistering)
  }

  /** Pressing the switch twice gives the form back. */
  lemma ToggleModeTwiceRestores(f: AuthForm)
    ensures ToggleMode(ToggleMode(f)) == f
  {
  }

  /** The events the card reacts to, with the provider outcomes each needs. */
  datatype Event =
    | EmailPassword(attempt: Result<(), Failure>, current: Option<User>, send: Result<(), Failure>)
    | Google(attempt: Result<(), Failure>)
    | CheckStatus(hasUser: bool, reload: Result<bool, Failure>)
    | Resend(hasUser: bool, send: Result<(), Failure>)

  function Handle(f: AuthForm, e: Event): Step {
    match e
    case EmailPassword(a, c, s) => EmailPasswordAuth(f, a, c, s)
    case Google(a) => GoogleAuth(f, a)
    case CheckStatus(h, r) => CheckVerification(f, h, r)
    case Resend(h, s) => ResendVerification(f, h, s)
  }

  /** The screen switches only for a reason: to the verification screen after a
      registration or an unverified sign-in, back to the form only once the
      address is verified; a provider failure never switches it. Every handler
      ends with `loading` cleared and keeps the typed credentials. */
  lemma ScreenChangesOnlyForAReason(f: AuthForm, e: Event)
    ensures var r := Handle(f, e);
      && !r.form.loading
      && r.form.email == f.email && r.form.password == f.password && r.form.isRegistering == f.isRegistering
      && (r.form.verificationSent && !f.verificationSent ==>
            e.EmailPassword? && e.attempt.Ok? && r.form.registeredEmail == Some(f.email) && !r.loggedIn)
      && (!r.form.verificationSent && f.verificationSent ==>
            e == CheckStatus(true, Ok(true)) && r.loggedIn)
      && (r.loggedIn ==> r.form.error.None?)
  {
  }
}

=== FILE: file_upload.dfy ===
/** The file-upload box: validating a dropped batch against a count and a size
    limit, adding it to the selection, and removing one selected file. */
module FileUpload {
  import opened Wrappers
  import opened Seqs

  /** A chosen file: its name and size in bytes. */
  datatype File = File(name: string, size: nat)

  /** The size limit the component uses when its parent gives none. */
  const DefaultMaxSizeMb: nat := 50

  /** Bytes in one of the component's megabytes. */
  const BytesPerMb: nat := 1024 * 1024

  /** A validation error: too many files at once (`最多只能選擇 N 個文件`), or
      one file over the size limit (`文件 "name" 超過 N MB 大小限制`). */
  datatype FileError = TooManyFiles(limit: nat) | TooLarge(name: string, limitMb: nat)

  /** The alert `handleFiles` raises: the validation errors joined by line
      breaks, or the total count exceeded (`文件总数不能超过 N 个`). */
  datatype Alert = ValidationErrors(errors: seq<FileError>) | TotalTooMany(limit: nat)

  predicate Fits(f: File, maxSizeMb: nat) {
    f.size <= maxSizeMb * BytesPerMb
  }

  function FitsLimit(maxSizeMb: nat): File -> bool {
    (f: File) => Fits(f, maxSizeMb)
  }

  function TooBig(maxSizeMb: nat): File -> bool {
    (f: File) => !Fits(f, maxSizeMb)
  }

  /** The size error for each of the given files, in order. */
  function ErrorsFor(bad: seq<File>, maxSizeMb: nat): (errs: seq<FileError>)
    ensures |errs| == |bad|
    ensures forall k :: 0 <= k < |bad| ==> errs[k] == TooLarge(bad[k].name, maxSizeMb)
  {
    if |bad| == 0 then [] else [TooLarge(bad[0].name, maxSizeMb)] + ErrorsFor(bad[1..], maxSizeMb)
  }

  /** One size error per oversize file, in the order of the files: the `k`-th
      error names the `k`-th file over the limit. */
  function SizeErrors(files: seq<File>, maxSizeMb: nat): (errs: seq<FileError>)
    ensures forall k :: 0 <= k < |errs| ==> errs[k].TooLarge? && errs[k].limitMb == maxSizeMb
    ensures |errs| == 0 <==> forall i :: 0 <= i < |files| ==> Fits(files[i], maxSizeMb)
    ensures |errs| == |Filter(files, TooBig(maxSizeMb))|
    ensures forall k :: 0 <= k < |errs| ==>
      errs[k] == TooLarge(Filter(files, TooBig(maxSizeMb))[k].name, maxSizeMb)
  {
    var bad := Filter(files, TooBig(maxSizeMb));
    FilterEmptyIff(files, TooBig(maxSizeMb));
    ErrorsFor(bad, maxSizeMb)
  }

  /** Size errors grow file by file: an oversize last file adds its error at the end. */
  lemma SizeErrorsSnoc(init: seq<File>, last: File, maxSizeMb: nat)
    ensures SizeErrors(init + [last], maxSizeMb) ==
      if Fits(last, maxSizeMb) then SizeErrors(init, maxSizeMb)
      else SizeErrors(init, maxSizeMb) + [TooLarge(last.name, maxSizeMb)]
  {
    FilterSnoc(init, last, TooBig(maxSizeMb));
  }

  /** `validateFiles`. A batch over the count limit gives exactly one error and
      no valid file; otherwise every file either fits and is kept, in order, or
      gives one size error. */
  method ValidateFiles(files: seq<File>, maxFiles: nat, maxSizeMb: nat) returns (valid: seq<File>, errors: seq<FileError>)
    ensures |files| > maxFiles ==> valid == [] && errors == [TooManyFiles(maxFiles)]
    ensures |files| <= maxFiles ==>
      && valid == Filter(files, FitsLimit(maxSizeMb))
      && errors == SizeErrors(files, maxSizeMb)
      && |valid| + |errors| == |files|
  {
    if |files| > maxFiles {
      return [], [TooManyFiles(maxFiles)];
    }
    valid, errors := [], [];
    var i := 0;
    while i < |files|
      invariant i <= |files|
      invariant valid == Filter(files[..i], FitsLimit(maxSizeMb))
      invariant errors == SizeErrors(files[..i], maxSizeMb)
      invariant |valid| + |errors| == i
    {
      var f, prefix := files[i], files[..i];
      assert files[..i + 1] == prefix + [f];
      if !Fits(f, maxSizeMb) {
        assert errors + [TooLarge(f.name, maxSizeMb)] == SizeErrors(prefix + [f], maxSizeMb) by {
          SizeErrorsSnoc(prefix, f, maxSizeMb);
        }
        assert valid == Filter(prefix + [f], FitsLimit(maxSizeMb)) by {
          FilterSnoc(prefix, f, FitsLimit(maxSizeMb));
        }
        errors := errors + [TooLarge(f.name, maxSizeMb)];
      } else {
        assert errors == SizeErrors(prefix + [f], maxSizeMb) by {
          SizeErrorsSnoc(prefix, f, maxSizeMb);
        }
        assert valid + [f] == Filter(prefix + [f], FitsLimit(maxSizeMb)) by {
          FilterSnoc(prefix, f, FitsLimit(maxSizeMb));
        }
        valid := valid + [f];
      }
      i := i + 1;
    }
    assert files[..i] == files;
  }

  /** With the default size limit a file of exactly 50 MB (52428800 bytes) is
      accepted, and one byte more gives a single error naming it. */
  lemma DefaultSizeBoundary(name: string)
    ensures DefaultMaxSizeMb * BytesPerMb == 52428800
    ensures SizeErrors([File(name, 52428800)], DefaultMaxSizeMb) == []
    ensures SizeErrors([File(name, 52428801)], DefaultMaxSizeMb) == [TooLarge(name, DefaultMaxSizeMb)]
  {
  }

  /** A batch with no error keeps all its files. */
  lemma NoErrorsKeepsAll(files: seq<File>, maxSizeMb: nat)
    requires SizeErrors(files, maxSizeMb) == []
    ensures Filter(files, FitsLimit(maxSizeMb)) == files
  {
    FilterAllKept(files, FitsLimit(maxSizeMb));
  }

  /** `handleFiles`: `incoming` is `None` when the browser gives no file list. A
      batch is taken whole or not at all; a valid batch that would take the
      selection over the count limit is refused with `TotalTooMany`, so a
      selection within the limit stays within it. */
  method HandleFiles(selected: seq<File>, incoming: Option<seq<File>>, maxFiles: nat, maxSizeMb: nat)
    returns (next: seq<File>, alert: Option<Alert>)
    ensures incoming.None? ==> next == selected && alert.None?
    ensures incoming.Some? ==> next == selected || next == selected + incoming.value
    ensures next != selected ==> |incoming.value| > 0 && alert.None?
    ensures incoming.Some? && (exists i :: 0 <= i < |incoming.value| && !Fits(incoming.value[i], maxSizeMb)) ==>
      next == selected && alert.Some? && alert.value.ValidationErrors?
    ensures incoming.Some? && |incoming.value| > maxFiles ==>
      next == selected && alert == Some(ValidationErrors([TooManyFiles(maxFiles)]))
    ensures |selected| <= maxFiles ==> |next| <= maxFiles
    ensures incoming.Some? && |incoming.value| > 0 && |selected| + |incoming.value| <= maxFiles
            && (forall i :: 0 <= i < |incoming.value| ==> Fits(incoming.value[i], maxSizeMb)) ==>
      next == selected + incoming.value && alert.None?
    ensures incoming.Some? && 0 < |incoming.value| <= maxFiles
            && (forall i :: 0 <= i < |incoming.value| ==> Fits(incoming.value[i], maxSizeMb))
            && |selected| + |incoming.value| > maxFiles ==>
      next == selected && alert == Some(TotalTooMany(maxFiles))
    ensures incoming.Some? && |incoming.value| == 0 ==> next == selected && alert.None?
    ensures incoming.Some? && |incoming.value| <= maxFiles && SizeErrors(incoming.value, maxSizeMb) != [] ==>
      next == selected && alert == Some(ValidationErrors(SizeErrors(incoming.value, maxSizeMb)))
  {
    if incoming.None? {
      return selected, None;
    }
    var files := incoming.value;
    var valid, errors := ValidateFiles(files, maxFiles, maxSizeMb);
    if |errors| > 0 {
      return selected, Some(ValidationErrors(errors));
    }
    NoErrorsKeepsAll(files, maxSizeMb);
    next, alert := selected, None;
    if |valid| > 0 {
      var newFiles := selected + valid;
      if |newFiles| > maxFiles {
        return selected, Some(TotalTooMany(maxFiles));
      }
      next := newFiles;
    }
  }

  /** `removeFile`: splicing one element out of a copy of the selection; an
      index past the end removes nothing, a negative one counts from the end
      and one before the start removes the first file. */
  function RemoveFile(selected: seq<File>, index: int): (r: seq<File>)
    ensures 0 <= index < |selected| ==> r == selected[..index] + selected[index + 1..]
    ensures index >= |selected| ==> r == selected
    ensures index < -|selected| ==> r == if |selected| == 0 then selected else selected[1..]
    ensures -|selected| <= index < 0 ==> r == selected[..|selected| + index] + selected[|selected| + index + 1..]
  {
    SpliceOne(selected, index)
  }

  /** Removing an index in range deletes exactly that file: one fewer file,
      every other one still there as often as before. */
  lemma RemoveFileCounts(selected: seq<File>, index: nat)
    requires index < |selected|
    ensures |RemoveFile(selected, index)| == |selected| - 1
    ensures multiset(RemoveFile(selected, index)) + multiset{selected[index]} == multiset(selected)
  {
  }
}

=== FILE: identity.dfy ===
/** The signed-in user as the identity provider reports it. Only the fields
    the components read are kept. */
module Identity {
  import opened Wrappers

  datatype User = User(displayName: Option<string>, email: Option<string>, emailVerified: bool)

  /** `!!s` for an optional string: present and non-empty. */
  predicate Truthy(s: Option<string>) {
    s.Some? && s.value != []
  }

  /** The user has a display name, so no profile setup is needed. */
  predicate HasDisplayName(u: User) {
    Truthy(u.displayName)
  }
}

=== FILE: kyc_module.dfy ===
/** The KYC module's list of record files: creating one file per type and
    replacing a file after the drawer saves it. */
module KycModule {
  import opened Wrappers
  import opened ProjectTypes
  import RecordFileDrawer

  /** The module's state: the record files, the file open in the drawer, and
      whether the drawer is open. */
  datatype Kyc = Kyc(files: seq<RecordFile>, selected: Option<RecordFile>, drawerOpen: bool)

  /** The fixed display name a new record file of each type gets. */
  function DefaultName(t: RecordFileType): string {
    match t
    case InsuranceNeeds => "保險需求評估"
    case RetirementBudget => "退休金預算"
    case _ => "醫療費用預測"
  }

  /** The body of the create request: the type, its name, no data and empty text. */
  datatype CreateRequest = CreateRequest(kind: RecordFileType, name: string, data: map<string, Amount>, rawText: string)

  function NewFileRequest(t: RecordFileType): CreateRequest {
    CreateRequest(t, DefaultName(t), map[], "")
  }

  /** The server created the file the request asked for. */
  predicate Honours(req: CreateRequest, file: RecordFile) {
    && file.kind == req.kind
    && file.name == req.name
    && file.data == req.data
    && file.rawText == Some(req.rawText)
  }

  /** The local file made when the create call fails; `id` stands for the random
      identifier and `now` for the current timestamp. */
  function LocalFile(projectId: string, t: RecordFileType, id: string, now: string): (f: RecordFile)
    ensures Honours(NewFileRequest(t), f)
    ensures f.id == id && f.projectId == projectId
  {
    RecordFile(id, projectId, t, DefaultName(t), map[], Some(""), now, now)
  }

  /** `recordFiles.find(f => f.type === type)`. */
  function FindByType(files: seq<RecordFile>, t: RecordFileType): (r: Option<nat>)
    ensures r.None? <==> forall i :: 0 <= i < |files| ==> files[i].kind != t
    ensures r.Some? ==> r.value < |files| && files[r.value].kind == t
                        && forall i :: 0 <= i < r.value ==> files[i].kind != t
  {
    if |files| == 0 then None
    else if files[0].kind == t then Some(0)
    else
      match FindByType(files[1..], t)
      case None => None
      case Some(i) => Some(i + 1)
  }

  /** `handleCreateFile`, given the API's answer: an existing file of the type is
      opened and the list kept; otherwise the created file, or on failure a local
      one, is appended and opened. */
  function CreateFile(s: Kyc, projectId: string, t: RecordFileType,
                      outcome: Result<RecordFile, Failure>, localId: string, now: string): (r: Kyc)
    ensures r.drawerOpen
    ensures (exists i :: 0 <= i < |s.files| && s.files[i].kind == t) ==>
      && r.files == s.files
      && r.selected.Some? && r.selected.value in s.files && r.selected.value.kind == t
    ensures (exists i :: 0 <= i < |s.files| && s.files[i].kind == t) ==>
      exists i :: 0 <= i < |s.files| && s.files[i].kind == t && r.selected == Some(s.files[i])
                  && forall j :: 0 <= j < i ==> s.files[j].kind != t
    ensures (forall i :: 0 <= i < |s.files| ==> s.files[i].kind != t) ==>
      && |r.files| == |s.files| + 1
      && r.files[..|s.files|] == s.files
      && r.selected == Some(r.files[|s.files|])
      && (outcome.Ok? ==> r.files[|s.files|] == outcome.value)
      && (outcome.Err? ==> r.files[|s.files|] == LocalFile(projectId, t, localId, now))
  {
    match FindByType(s.files, t)
    case Some(i) => Kyc(s.files, Some(s.files[i]), true)
    case None =>
      var file := match outcome
        case Ok(created) => created
        case Err(_) => LocalFile(projectId, t, localId, now);
      Kyc(s.files + [file], Some(file), true)
  }

  /** No two record files share a type. */
  predicate UniqueTypes(files: seq<RecordFile>) {
    forall i, j :: 0 <= i < j < |files| ==> files[i].kind != files[j].kind
  }

  /** Creating keeps types unique, provided a file the server returns has the
      requested type. */
  lemma CreateKeepsTypesUnique(s: Kyc, projectId: string, t: RecordFileType,
                               outcome: Result<RecordFile, Failure>, localId: string, now: string)
    requires UniqueTypes(s.files)
    requires outcome.Ok? ==> outcome.value.kind == t
    ensures UniqueTypes(CreateFile(s, projectId, t, outcome, localId, now).files)
  {
  }

  /** A new type always gains exactly one file, of that type, named for it, with
      no data and empty text, whether the server call succeeds (and honours the
      request) or fails. */
  lemma CreateAppendsFileOfType(s: Kyc, projectId: string, t: RecordFileType,
                                outcome: Result<RecordFile, Failure>, localId: string, now: string)
    requires forall i :: 0 <= i < |s.files| ==> s.files[i].kind != t
    requires outcome.Ok? ==> Honours(NewFileRequest(t), outcome.value)
    ensures var r := CreateFile(s, projectId, t, outcome, localId, now);
      && |r.files| == |s.files| + 1
      && Honours(NewFileRequest(t), r.files[|s.files|])
      && r.files[|s.files|].name == DefaultName(t)
  {
  }

  /** `handleUpdateFile`: every file with the saved file's id is replaced by it;
      the others, the selection and the drawer are untouched. */
  function UpdateFile(s: Kyc, updated: RecordFile): (r: Kyc)
    ensures |r.files| == |s.files|
    ensures forall i :: 0 <= i < |s.files| ==>
      r.files[i] == if s.files[i].id == updated.id then updated else s.files[i]
    ensures r.selected == s.selected && r.drawerOpen == s.drawerOpen
  {
    s.(files := ReplaceById(s.files, updated))
  }

  function ReplaceById(files: seq<RecordFile>, updated: RecordFile): (r: seq<RecordFile>)
    ensures |r| == |files|
    ensures forall i :: 0 <= i < |files| ==>
      r[i] == if files[i].id == updated.id then updated else files[i]
  {
    if |files| == 0 then []
    else [if files[0].id == updated.id then updated else files[0]] + ReplaceById(files[1..], updated)
  }

  /** When saving fails, the list ends up holding the drawer's figures and text
      under the saved file's id. */
  lemma FailedSaveKeepsDrawerData(s: Kyc, d: RecordFileDrawer.Drawer, file: RecordFile, err: Failure)
    ensures var r := RecordFileDrawer.Save(d, Some(file), Err(err));
      r.Saved? &&
      var after := UpdateFile(s, r.file);
      forall i :: 0 <= i < |after.files| && s.files[i].id == file.id ==>
        after.files[i].data == d.parsed && after.files[i].rawText == Some(d.rawText)
  {
  }
}

=== FILE: multi_select.dfy ===
/** The multi-select box: a list of chosen option values. */
module MultiSelect {
  import opened Seqs

  function IsNot(item: string): string -> bool {
    (v: string) => v != item
  }

  /** `handleUnselect`: every occurrence of the value goes, the rest keep their order. */
  function Unselect(selected: seq<string>, item: string): (r: seq<string>)
    ensures item !in r
    ensures forall v :: multiset(r)[v] == if v == item then 0 else multiset(selected)[v]
    ensures IsSubseq(r, selected)
  {
    var r := Filter(selected, IsNot(item));
    assert forall i :: 0 <= i < |r| ==> IsNot(item)(r[i]);
    forall v ensures multiset(r)[v] == if v == item then 0 else multiset(selected)[v] {
      FilterCounts(selected, IsNot(item), v);
    }
    r
  }

  /** Any subsequence that drops exactly the occurrences of the value is the unselection. */
  lemma UnselectUnique(r: seq<string>, selected: seq<string>, item: string)
    requires IsSubseq(r, selected)
    requires forall v :: multiset(r)[v] == if v == item then 0 else multiset(selected)[v]
    ensures r == Unselect(selected, item)
  {
    FilterUnique(r, selected, IsNot(item));
  }

  /** Unselecting keeps every other value exactly as often as it occurred. */
  lemma UnselectCounts(selected: seq<string>, item: string, v: string)
    ensures multiset(Unselect(selected, item))[v] == if v == item then 0 else multiset(selected)[v]
  {
    FilterCounts(selected, IsNot(item), v);
  }

  /** Choosing an option: a selected value is unselected, any other appended. */
  function Toggle(selected: seq<string>, v: string): (r: seq<string>)
    ensures v in selected ==> v !in r && IsSubseq(r, selected)
    ensures v in selected ==> forall w :: multiset(r)[w] == if w == v then 0 else multiset(selected)[w]
    ensures v !in selected ==> |r| == |selected| + 1 && r[..|selected|] == selected && r[|selected|] == v
  {
    if v in selected then Unselect(selected, v) else selected + [v]
  }

  /** Choosing an unselected option twice gives the selection back. */
  lemma ToggleTwiceRestores(selected: seq<string>, v: string)
    requires v !in selected
    ensures Toggle(Toggle(selected, v), v) == selected
  {
    FilterConcat(selected, [v], IsNot(v));
    FilterAllKept(selected, IsNot(v));
    assert Filter([v], IsNot(v)) == [] by {
      FilterCounts([v], IsNot(v), v);
    }
  }

  /** A selection without repeats keeps none after a toggle. */
  lemma ToggleKeepsNoDup(selected: seq<string>, v: string)
    requires NoDup(selected)
    ensures NoDup(Toggle(selected, v))
  {
    if v in selected {
      FilterNoDup(selected, IsNot(v));
    }
  }

  /** "Clear all". */
  function ClearAll(selected: seq<string>): (r: seq<string>)
    ensures forall v :: v !in r
  {
    []
  }
}

=== FILE: new_project_dialog.dfy ===
/** The new-case dialog: the form, its validity check, the create request it
    sends, and the optimistic creation of a tag in the list it offers. */
module NewProjectDialog {
  import opened Wrappers
  import opened Seqs
  import opened Text
  import opened ProjectTypes
  import opened TagLists
  import TagService

  /** The dialog's form and whether it is open. */
  datatype Form = Form(title: string, clientName: string, summary: string, selected: seq<Tag>, open: bool)

  /** `loadTags`: the service's tags replace the list; a failure keeps it. */
  function LoadTags(available: seq<Tag>, answer: Result<seq<string>, Failure>): (r: seq<Tag>)
    ensures answer.Err? ==> r == available
    ensures answer.Ok? ==> Names(r) == answer.value && IdsAreNames(r)
  {
    TagService.GetAllTagsRoundTrip(if answer.Ok? then answer.value else []);
    match TagService.GetAllTags(answer)
    case Ok(tags) => tags
    case Err(_) => available
  }

  /** The list right after `handleCreateTag` starts: the name is offered as a
      tag whose id is the name. */
  function AddOptimistic(available: seq<Tag>, name: string): (r: seq<Tag>)
    ensures |r| == |available| + 1 && r[..|available|] == available
    ensures r[|available|] == TagService.TagOf(name)
  {
    available + [TagService.TagOf(name)]
  }

  /** What `handleCreateTag` leaves: the tag list, and the tag it resolves with
      or the error it re-throws. */
  datatype TagCreation = TagCreation(available: seq<Tag>, result: Result<Tag, Failure>)

  /** Settling the create against the list as it then is: success swaps every
      entry with the name as id for the server's tag, failure drops them and
      re-throws the error unchanged. */
  function SettleCreateTag(current: seq<Tag>, name: string, answer: Result<Tag, Failure>): (r: TagCreation)
    ensures r.result == answer
    ensures answer.Ok? ==>
      && |r.available| == |current|
      && forall i :: 0 <= i < |current| ==>
           r.available[i] == if current[i].id == name then answer.value else current[i]
    ensures answer.Err? ==> !HasId(r.available, name) && IsSubseq(r.available, current)
    ensures answer.Err? ==> DropsId(r.available, current, name)
  {
    match answer
    case Ok(created) => TagCreation(ReplaceId(current, name, created), answer)
    case Err(_) => TagCreation(WithoutId(current, name), answer)
  }

  /** `handleCreateTag` as one step; `answer` is what the tag service returned. */
  function CreateTag(available: seq<Tag>, name: string, answer: Result<Tag, Failure>): (r: TagCreation)
    ensures r.result == answer
    ensures answer.Ok? ==> |r.available| == |available| + 1 && r.available[|available|] == answer.value
    ensures answer.Ok? ==> r.available == ReplaceId(available, name, answer.value) + [answer.value]
    ensures answer.Err? ==> r.available == WithoutId(available, name)
  {
    var opt := AddOptimistic(available, name);
    var r := SettleCreateTag(opt, name, answer);
    if answer.Ok? then
      assert r.available == ReplaceId(available, name, answer.value) + [answer.value];
      r
    else
      WithoutIdConcat(available, [TagService.TagOf(name)], name);
      assert opt == available + [TagService.TagOf(name)];
      FilterCounts([TagService.TagOf(name)], IdIsNot(name), TagService.TagOf(name));
      assert WithoutId([TagService.TagOf(name)], name) == [];
      r
  }

  /** A failed create of a name not yet offered leaves the list as it was. */
  lemma CreateFailureRollsBack(available: seq<Tag>, name: string, err: Failure)
    requires !HasId(available, name)
    ensures CreateTag(available, name, Err(err)).available == available
  {
    WithoutAbsentId(available, name);
  }

  /** Tags whose id is their name stay that way through a create, when the
      server's tag is one the service built. */
  lemma CreateKeepsIdsAreNames(available: seq<Tag>, name: string, answer: Result<Tag, Failure>)
    requires IdsAreNames(available)
    requires answer.Ok? ==> answer.value.id == answer.value.name
    ensures IdsAreNames(CreateTag(available, name, answer).available)
  {
    var r := CreateTag(available, name, answer).available;
    if answer.Err? {
      var opt := AddOptimistic(available, name);
      forall i | 0 <= i < |r|
        ensures r[i].id == r[i].name
      {
        assert r[i] in WithoutId(opt, name);
        WithoutIdMembers(opt, name, r[i]);
        var k :| 0 <= k < |opt| && opt[k] == r[i];
      }
    }
  }

  /** `isFormValid`: both the title and the client name have a non-blank character. */
  predicate IsFormValid(f: Form) {
    Trim(f.title) != [] && Trim(f.clientName) != []
  }

  /** The create-case request the form produces. */
  function Payload(f: Form): (p: CreateCaseInput)
    ensures p.title == Trim(f.title) && p.clientName == Trim(f.clientName) && p.summary == Trim(f.summary)
    ensures |p.tags| == |f.selected| && forall i :: 0 <= i < |f.selected| ==> p.tags[i] == f.selected[i].name
    ensures p.status == Some(Draft)
  {
    CreateCaseInput(Trim(f.title), Trim(f.clientName), Trim(f.summary), Names(f.selected), Some(Draft))
  }

  /** The request's text fields have nothing left to trim. */
  lemma PayloadTrimmed(f: Form)
    ensures var p := Payload(f);
      Trim(p.title) == p.title && Trim(p.clientName) == p.clientName && Trim(p.summary) == p.summary
  {
    TrimUnpadded(Trim(f.title));
    TrimUnpadded(Trim(f.clientName));
    TrimUnpadded(Trim(f.summary));
  }

  /** The effect of `handleSubmit`: the form left behind, the request sent (if
      any), the page navigated to (if any), and whether the parent was told. */
  datatype Submission = Submission(form: Form, request: Option<CreateCaseInput>, navigateTo: Option<string>, notified: bool)

  /** `handleSubmit`; `answer` is the created case's id or the failure. */
  function Submit(f: Form, answer: Result<string, Failure>): (r: Submission)
    ensures r.request.Some? <==> IsFormValid(f)
    ensures r.request.Some? ==> r.request.value == Payload(f)
    ensures r.navigateTo.Some? <==> IsFormValid(f) && answer.Ok?
    ensures r.notified <==> r.navigateTo.Some?
    ensures r.navigateTo.Some? ==>
      && r.navigateTo.value == "/projects/" + answer.value
      && r.form == Form([], [], [], [], false)
    ensures r.navigateTo.None? ==> r.form == f
  {
    if !IsFormValid(f) then Submission(f, None, None, false)
    else
      match answer
      case Ok(caseId) => Submission(Form([], [], [], [], false), Some(Payload(f)), Some("/projects/" + caseId), true)
      case Err(_) => Submission(f, Some(Payload(f)), None, false)
  }

  /** `handlePolishSummary`: a blank summary, or one already being polished, is
      left alone; otherwise the service's text replaces it, and a failure keeps it. */
  function PolishSummary(summary: string, polishing: bool, answer: Result<string, Failure>): (r: string)
    ensures Trim(summary) == [] || polishing || answer.Err? ==> r == summary
    ensures Trim(summary) != [] && !polishing && answer.Ok? ==> r == answer.value
  {
    if Trim(summary) == [] || polishing then summary
    else match answer
      case Ok(polished) => polished
      case Err(_) => summary
  }

  /** Polishing touches only the summary: the form stays valid or invalid as
      it was, the request keeps its title, client, tags and status, and its
      summary becomes the trimmed polished text exactly when the polish ran
      and succeeded. */
  lemma PolishKeepsRequest(f: Form, polishing: bool, answer: Result<string, Failure>)
    ensures var g := f.(summary := PolishSummary(f.summary, polishing, answer));
      && IsFormValid(g) == IsFormValid(f)
      && Payload(g).title == Payload(f).title
      && Payload(g).clientName == Payload(f).clientName
      && Payload(g).tags == Payload(f).tags
      && Payload(g).status == Payload(f).status
      && (Trim(f.summary) != [] && !polishing && answer.Ok? ==> Payload(g).summary == Trim(answer.value))
      && (Trim(f.summary) == [] || polishing || answer.Err? ==> Payload(g) == Payload(f))
  {
  }
}

=== FILE: password_change.dfy ===
/** The password-change form of the account settings: two local checks, then
    re-authentication and the update at the identity provider, whose error
    codes are turned into messages. */
module PasswordChange {
  import opened Wrappers
  import opened Text
  import opened Identity

  datatype PasswordForm = PasswordForm(current: string, newPassword: string, confirm: string, loading: bool)

  /** A provider error: its code and its message. */
  datatype ProviderError = ProviderError(code: string, message: string)

  datatype Toast = SuccessToast(text: string) | ErrorToast(text: string)

  /** The provider calls the handler makes, in order. */
  datatype Call = Reauthenticate(email: string, password: string) | UpdatePassword(password: string)

  /** The handler's effect: the form left, the toast shown, the calls made. */
  datatype Change = Change(form: PasswordForm, toast: Option<Toast>, calls: seq<Call>)

  const MinLength: nat := 6
  const MismatchMessage: string := "兩次輸入的新密碼不符"
  const TooShortMessage: string := "新密碼長度至少需要 6 個字元"
  const UpdatedMessage: string := "密碼已更新，請下次登入時使用新密碼"
  const WrongPasswordMessage: string := "目前密碼錯誤"
  const WeakPasswordMessage: string := "新密碼強度不足"
  const ReloginMessage: string := "需要重新登入才能修改密碼"
  const FailedPrefix: string := "更新密碼失敗: "

  /** The message shown for a provider error. */
  function Classify(e: ProviderError): (msg: string)
    ensures e.code == "auth/invalid-credential" || e.code == "auth/wrong-password" ==> msg == WrongPasswordMessage
    ensures e.code == "auth/weak-password" ==> msg == WeakPasswordMessage
    ensures e.code == "auth/requires-recent-login" ==> msg == ReloginMessage
    ensures e.code !in {"auth/invalid-credential", "auth/wrong-password", "auth/weak-password", "auth/requires-recent-login"} ==>
      msg == FailedPrefix + e.message
  {
    if e.code == "auth/invalid-credential" || e.code == "auth/wrong-password" then WrongPasswordMessage
    else if e.code == "auth/weak-password" then WeakPasswordMessage
    else if e.code == "auth/requires-recent-login" then ReloginMessage
    else FailedPrefix + e.message
  }

  /** The fixed messages are told apart from the provider's own: only an
      unknown code shows the provider's message. */
  lemma ClassifyDistinguishes(e: ProviderError)
    ensures Classify(e) == WrongPasswordMessage || Classify(e) == WeakPasswordMessage
            || Classify(e) == ReloginMessage || Classify(e) == FailedPrefix + e.message
    ensures Classify(e) != FailedPrefix + e.message ==>
      e.code in {"auth/invalid-credential", "auth/wrong-password", "auth/weak-password", "auth/requires-recent-login"}
  {
  }

  /** Both local checks pass and the user has an address, so the handler goes
      on to the provider. */
  predicate ReadyToChange(f: PasswordForm, user: Option<User>) {
    && f.newPassword == f.confirm
    && Utf16Length(f.newPassword) >= MinLength
    && user.Some? && Truthy(user.value.email)
  }

  /** `handlePasswordChange`. `reauth` and `update` are the provider's outcomes
      for re-authentication and for the update. The length check counts UTF-16
      code units, as `String.length` does. */
  function ChangePassword(f: PasswordForm, user: Option<User>,
                          reauth: Result<(), ProviderError>, update: Result<(), ProviderError>): (r: Change)
    ensures f.newPassword != f.confirm ==>
      r == Change(f.(loading := false), Some(ErrorToast(MismatchMessage)), [])
    ensures f.newPassword == f.confirm && Utf16Length(f.newPassword) < MinLength ==>
      r == Change(f.(loading := false), Some(ErrorToast(TooShortMessage)), [])
    ensures f.newPassword == f.confirm && Utf16Length(f.newPassword) >= MinLength
            && (user.None? || !Truthy(user.value.email)) ==>
      r == Change(f.(loading := true), None, [])
    ensures UpdatePassword(f.newPassword) in r.calls ==>
      && user.Some? && Truthy(user.value.email) && reauth.Ok?
      && r.calls == [Reauthenticate(user.value.email.value, f.current), UpdatePassword(f.newPassword)]
    ensures r.toast.Some? && r.toast.value.SuccessToast? ==>
      && reauth.Ok? && update.Ok? && |r.calls| == 2
      && r.form == PasswordForm([], [], [], false)
    ensures |r.calls| > 0 && (reauth.Err? || update.Err?) ==>
      && r.form == f.(loading := false)
      && r.toast == Some(ErrorToast(Classify(if reauth.Err? then reauth.error else update.error)))
    ensures ReadyToChange(f, user) && reauth.Err? ==>
      r == Change(f.(loading := false), Some(ErrorToast(Classify(reauth.error))),
                  [Reauthenticate(user.value.email.value, f.current)])
    ensures ReadyToChange(f, user) && reauth.Ok? && update.Err? ==>
      r == Change(f.(loading := false), Some(ErrorToast(Classify(update.error))),
                  [Reauthenticate(user.value.email.value, f.current), UpdatePassword(f.newPassword)])
    ensures ReadyToChange(f, user) && reauth.Ok? && update.Ok? ==>
      r == Change(PasswordForm([], [], [], false), Some(SuccessToast(UpdatedMessage)),
                  [Reauthenticate(user.value.email.value, f.current), UpdatePassword(f.newPassword)])
  {
    var f1 := f.(loading := true);
    if f.newPassword != f.confirm then Change(f1.(loading := false), Some(ErrorToast(MismatchMessage)), [])
    else if Utf16Length(f.newPassword) < MinLength then Change(f1.(loading := false), Some(ErrorToast(TooShortMessage)), [])
    else if user.None? || !Truthy(user.value.email) then Change(f1, None, [])
    else
      var first := [Reauthenticate(user.value.email.value, f.current)];
      match reauth
      case Err(e) => Change(f1.(loading := false), Some(ErrorToast(Classify(e))), first)
      case Ok(_) =>
        var both := first + [UpdatePassword(f.newPassword)];
        match update
        case Err(e) => Change(f1.(loading := false), Some(ErrorToast(Classify(e))), both)
        case Ok(_) => Change(PasswordForm([], [], [], false), Some(SuccessToast(UpdatedMessage)), both)
  }

  /** The password changes only when both inputs agree, are long enough, the
      user has an address, and re-authentication with the current password
      succeeded first. */
  lemma UpdateOnlyWhenValid(f: PasswordForm, user: Option<User>,
                            reauth: Result<(), ProviderError>, update: Result<(), ProviderError>)
    requires UpdatePassword(f.newPassword) in ChangePassword(f, user, reauth, update).calls
    ensures f.newPassword == f.confirm && Utf16Length(f.newPassword) >= MinLength
    ensures ChangePassword(f, user, reauth, update).calls[0] == Reauthenticate(user.value.email.value, f.current)
  {
  }

  /** The converse: once both checks pass, the user has an address and
      re-authentication succeeds, the update is attempted; when it succeeds the
      fields are cleared and the success toast shows. */
  lemma UpdateWhenValid(f: PasswordForm, user: Option<User>,
                        reauth: Result<(), ProviderError>, update: Result<(), ProviderError>)
    requires ReadyToChange(f, user) && reauth.Ok?
    ensures UpdatePassword(f.newPassword) in ChangePassword(f, user, reauth, update).calls
    ensures update.Ok? ==>
      && ChangePassword(f, user, reauth, update).form == PasswordForm([], [], [], false)
      && ChangePassword(f, user, reauth, update).toast == Some(SuccessToast(UpdatedMessage))
  {
    var r := ChangePassword(f, user, reauth, update);
    assert r.calls[1] == UpdatePassword(f.newPassword);
  }
}

=== FILE: project_types.dfy ===
/** The records the project pages exchange with the remote API. */
module ProjectTypes {
  import opened Wrappers

  /** A tag as the UI shows it: an identity and a visible name. */
  datatype Tag = Tag(id: string, name: string)

  /** A JavaScript number as the record-file parser produces it: a whole
      amount, or the NaN that `parseInt` returns when it finds no digit. */
  datatype Amount = Whole(value: nat) | NaN

  /** The kinds of KYC record file the module can create. */
  datatype RecordFileType = InsuranceNeeds | RetirementBudget | MedicalExpense

  /** One KYC record file of a case; `data` holds the parsed figures by key. */
  datatype RecordFile = RecordFile(
    id: string,
    projectId: string,
    kind: RecordFileType,
    name: string,
    data: map<string, Amount>,
    rawText: Option<string>,
    createdAt: string,
    updatedAt: string)

  /** The life-cycle states of a case. */
  datatype CaseStatus = Draft | InProgress | Completed | Archived

  /** The body of a create-case request. */
  datatype CreateCaseInput = CreateCaseInput(
    title: string,
    clientName: string,
    summary: string,
    tags: seq<string>,
    status: Option<CaseStatus>)
}

=== FILE: record_file_drawer.dfy ===
/** The record-file drawer: the text the agent pastes, the figures parsed from
    it, and the file handed back when the agent saves. */
module RecordFileDrawer {
  import opened Wrappers
  import opened Text
  import opened ProjectTypes
  import opened CalculatorText

  /** The drawer's editable state: the pasted text and the parsed figures. */
  datatype Drawer = Drawer(rawText: string, parsed: map<string, Amount>)

  /** The keys a parse result writes. */
  function WrittenKeys(found: map<Field, Amount>): (ks: set<string>)
    ensures forall f :: f in found ==> Key(f) in ks
    ensures forall k :: k in ks ==> exists f :: f in found && Key(f) == k
  {
    set f | f in found :: Key(f)
  }

  lemma KeyInjective(f: Field, g: Field)
    ensures Key(f) == Key(g) ==> f == g
  {
  }

  /** `{ ...parsedData, ...newData }`: every key the new parse produced takes
      the new value, and every other key keeps its old one. */
  function MergeParsed(prev: map<string, Amount>, found: map<Field, Amount>): (r: map<string, Amount>)
    ensures r.Keys == prev.Keys + WrittenKeys(found)
    ensures forall f :: f in found ==> r[Key(f)] == found[f]
    ensures forall k :: k in prev && k !in WrittenKeys(found) ==> r[k] == prev[k]
  {
    forall f, g | Key(f) == Key(g) ensures f == g {
      KeyInjective(f, g);
    }
    var written := map f | f in found :: Key(f) := found[f];
    prev + written
  }

  /** The effect that runs when a record file is handed to the drawer: with a
      file, its text (or `''`) and its data are loaded; without one the state stays. */
  function Load(d: Drawer, file: Option<RecordFile>): (r: Drawer)
    ensures file.None? ==> r == d
    ensures file.Some? ==> r.parsed == file.value.data
    ensures file.Some? && file.value.rawText.Some? ==> r.rawText == file.value.rawText.value
    ensures file.Some? && file.value.rawText.None? ==> r.rawText == ""
  {
    match file
    case None => d
    case Some(f) => Drawer(f.rawText.GetOr(""), f.data)
  }

  /** `handleTextChange`: the text is replaced and its figures merged over the old ones. */
  function TextChange(d: Drawer, text: string): (r: Drawer)
    ensures r.rawText == text
    ensures r.parsed.Keys == d.parsed.Keys + WrittenKeys(ParseText(text))
    ensures forall f :: f in ParseText(text) ==> r.parsed[Key(f)] == ParseText(text)[f]
    ensures forall k :: k in d.parsed && k !in WrittenKeys(ParseText(text)) ==> r.parsed[k] == d.parsed[k]
  {
    Drawer(text, MergeParsed(d.parsed, ParseText(text)))
  }

  /** Pasting text that holds no anchor phrase keeps every parsed figure. */
  lemma TextWithoutAnchorsKeepsFigures(d: Drawer, text: string)
    requires forall f :: !Contains(text, Anchor(f))
    ensures TextChange(d, text).parsed == d.parsed
  {
    NoAnchorNoFields(text);
  }

  /** Merging the same figures twice gives what merging them once gives. */
  lemma MergeIdempotent(prev: map<string, Amount>, found: map<Field, Amount>)
    ensures MergeParsed(MergeParsed(prev, found), found) == MergeParsed(prev, found)
  {
    var once := MergeParsed(prev, found);
    var twice := MergeParsed(once, found);
    forall k | k in twice
      ensures twice[k] == once[k]
    {
      if k in WrittenKeys(found) {
        var f :| f in found && Key(f) == k;
      }
    }
  }

  /** Handling the same text twice gives what handling it once gives. */
  lemma TextChangeIdempotent(d: Drawer, text: string)
    ensures TextChange(TextChange(d, text), text) == TextChange(d, text)
  {
    MergeIdempotent(d.parsed, ParseText(text));
  }

  /** What saving hands to the caller's `onUpdate`. */
  datatype SaveResult = NothingToSave | Saved(file: RecordFile)

  /** `handleSave`, given the API's answer: without a file nothing happens; the
      file the server returns is handed back; when the call fails, the drawer's
      file with the drawer's data and text is handed back instead. The drawer
      closes on both paths. */
  function Save(d: Drawer, file: Option<RecordFile>, outcome: Result<RecordFile, Failure>): (r: SaveResult)
    ensures file.None? <==> r.NothingToSave?
    ensures file.Some? && outcome.Ok? ==> r == Saved(outcome.value)
    ensures file.Some? && outcome.Err? ==>
      && r.Saved?
      && r.file.data == d.parsed
      && r.file.rawText == Some(d.rawText)
      && r.file.id == file.value.id
      && r.file.projectId == file.value.projectId
      && r.file.kind == file.value.kind
      && r.file.name == file.value.name
      && r.file.createdAt == file.value.createdAt
      && r.file.updatedAt == file.value.updatedAt
  {
    match file
    case None => NothingToSave
    case Some(f) =>
      match outcome
      case Ok(updated) => Saved(updated)
      case Err(_) => Saved(f.(data := d.parsed, rawText := Some(d.rawText)))
  }

  /** Loading a file and then saving it while the server call fails hands the
      file back unchanged, except that missing text comes back as `''`. */
  lemma FailedSaveAfterLoad(d: Drawer, file: RecordFile, err: Failure)
    ensures file.rawText.Some? ==> Save(Load(d, Some(file)), Some(file), Err(err)) == Saved(file)
    ensures file.rawText.None? ==>
      Save(Load(d, Some(file)), Some(file), Err(err)) == Saved(file.(rawText := Some("")))
  {
  }
}

=== FILE: route_guard.dfy ===
/** The application's routes and the guard around every page but the login
    page: it waits for the first auth callback, sends signed-out visitors to
    the login page, and sends users without a display name to profile setup. */
module RouteGuard {
  import opened Wrappers
  import opened Identity
  import AuthContext

  /** The guard's own state; `isAuthenticated` is `None` until the first callback. */
  datatype GuardState = GuardState(isAuthenticated: Option<bool>, needsProfileSetup: bool)

  const Initial: GuardState := GuardState(None, false)

  const LoginPath: string := "/login"
  const ProfileSetupPath: string := "/profile-setup"
  const OverviewPath: string := "/overview"

  /** The guard's auth callback. */
  function OnAuthChanged(user: Option<User>): (g: GuardState)
    ensures g.isAuthenticated == Some(user.Some?)
    ensures g.needsProfileSetup <==> user.Some? && !HasDisplayName(user.value)
  {
    match user
    case Some(u) => GuardState(Some(true), !HasDisplayName(u))
    case None => GuardState(Some(false), false)
  }

  /** The guard and the authentication context agree on both flags after the
      same callback. */
  lemma GuardAgreesWithContext(p: AuthContext.Provider, user: Option<User>)
    ensures var v := AuthContext.Value(AuthContext.OnAuthChanged(p, user));
      var g := OnAuthChanged(user);
      g.isAuthenticated == Some(v.isAuthenticated) && g.needsProfileSetup == v.needsProfileSetup
  {
  }

  /** What the guard renders. */
  datatype Decision = Loading | RedirectTo(path: string) | Render

  /** `ProtectedRoute`'s checks, in their order: loading, then signed in, then
      the profile. */
  function Decide(g: GuardState, pathname: string): (d: Decision)
    ensures g.isAuthenticated.None? <==> d.Loading?
    ensures g.isAuthenticated == Some(false) <==> d == RedirectTo(LoginPath)
    ensures d == RedirectTo(ProfileSetupPath) <==>
      g.isAuthenticated == Some(true) && g.needsProfileSetup && pathname != ProfileSetupPath
    ensures d.Render? <==>
      g.isAuthenticated == Some(true) && (!g.needsProfileSetup || pathname == ProfileSetupPath)
  {
    match g.isAuthenticated
    case None => Loading
    case Some(false) => RedirectTo(LoginPath)
    case Some(true) =>
      if g.needsProfileSetup && pathname != ProfileSetupPath then RedirectTo(ProfileSetupPath) else Render
  }

  /** A redirect made by the guard lands on a page the same state lets through:
      there is no redirect loop. */
  lemma RedirectTargetsSettle(g: GuardState, pathname: string)
    requires Decide(g, pathname).RedirectTo?
    ensures var target := Decide(g, pathname).path;
      target == LoginPath || Decide(g, target).Render?
  {
  }

  /** The pages the application routes to. */
  datatype Page =
    | Login | ProfileSetup | Overview | Projects
    | KnowledgeBaseList | KnowledgeBaseForm | KnowledgeBaseDetail(id: string)
    | Chat | IntelligentCreation | Tutorials | TutorialDetail(id: string)

  /** The element a route holds: a page shown as is, a page behind the guard,
      or a redirect. */
  datatype RouteElement = Open(page: Page) | Guarded(page: Page) | Redirect(to: string)

  /** `path` is `prefix` followed by one non-empty segment without a slash. */
  predicate SegmentAfter(path: string, prefix: string) {
    && |prefix| < |path| && path[..|prefix|] == prefix
    && '/' !in path[|prefix|..]
  }

  /** The route table; static paths take precedence over `:id` segments. */
  function Route(path: string): (r: Option<RouteElement>)
    ensures r == Some(Open(Login)) <==> path == LoginPath
    ensures r.Some? && r.value.Open? ==> path == LoginPath
    ensures r == Some(Redirect(OverviewPath)) <==> path == "/"
  {
    if path == LoginPath then Some(Open(Login))
    else if path == ProfileSetupPath then Some(Guarded(ProfileSetup))
    else if path == "/" then Some(Redirect(OverviewPath))
    else if path == OverviewPath then Some(Guarded(Overview))
    else if path == "/projects" then Some(Guarded(Projects))
    else if path == "/knowledge-base" then Some(Guarded(KnowledgeBaseList))
    else if path == "/knowledge-base/new" then Some(Guarded(KnowledgeBaseForm))
    else if SegmentAfter(path, "/knowledge-base/") then Some(Guarded(KnowledgeBaseDetail(path[16..])))
    else if path == "/chat" then Some(Guarded(Chat))
    else if path == "/intelligent-creation" then Some(Guarded(IntelligentCreation))
    else if path == "/tutorials" then Some(Guarded(Tutorials))
    else if SegmentAfter(path, "/tutorials/") then Some(Guarded(TutorialDetail(path[11..])))
    else None
  }

  /** What a visit to a path shows. */
  datatype Screen = Loader | NavigateTo(path: string) | Show(page: Page) | NoMatch

  function Visit(g: GuardState, path: string): (s: Screen)
    ensures Route(path).None? <==> s.NoMatch?
    ensures Route(path) == Some(Open(Login)) ==> s == Show(Login)
    ensures s.Show? ==> Route(path).Some? && !Route(path).value.Redirect? && Route(path).value.page == s.page
  {
    match Route(path)
    case None => NoMatch
    case Some(Open(page)) => Show(page)
    case Some(Redirect(to)) => NavigateTo(to)
    case Some(Guarded(page)) =>
      match Decide(g, path)
      case Loading => Loader
      case RedirectTo(to) => NavigateTo(to)
      case Render => Show(page)
  }

  /** Before the first callback every page but the login page shows the loader
      (the root path still redirects). */
  lemma LoaderBeforeFirstCallback(path: string)
    requires Route(path).Some? && Route(path).value.Guarded?
    ensures Visit(Initial, path) == Loader
  {
  }

  /** Signed out, every guarded page sends the visitor to the login page, and
      the login page shows. */
  lemma SignedOutGoesToLogin(path: string)
    requires Route(path).Some? && Route(path).value.Guarded?
    ensures Visit(OnAuthChanged(None), path) == NavigateTo(LoginPath)
    ensures Visit(OnAuthChanged(None), LoginPath) == Show(Login)
  {
  }

  /** A user with a display name sees every guarded page it asks for. */
  lemma NamedUserSeesPage(u: User, path: string)
    requires HasDisplayName(u)
    requires Route(path).Some? && Route(path).value.Guarded?
    ensures Visit(OnAuthChanged(Some(u)), path) == Show(Route(path).value.page)
  {
  }

  /** A user without a display name is sent to profile setup from every other
      guarded page, and sees the profile-setup page itself. */
  lemma UnnamedUserSetsUpProfile(u: User, path: string)
    requires !HasDisplayName(u)
    requires Route(path).Some? && Route(path).value.Guarded?
    ensures path != ProfileSetupPath ==> Visit(OnAuthChanged(Some(u)), path) == NavigateTo(ProfileSetupPath)
    ensures Visit(OnAuthChanged(Some(u)), ProfileSetupPath) == Show(ProfileSetup)
  {
  }
}

=== FILE: seqs.dfy ===
/** Sequence operations that stand for JavaScript's `Array.prototype.filter` and `splice`. */
module Seqs {

  /** `a` is a subsequence of `b`: `a` is `b` with some elements dropped and the
      rest kept in their order. Matching the last elements greedily is complete
      for this relation. */
  ghost predicate IsSubseq<T>(a: seq<T>, b: seq<T>)
    decreases |b|
  {
    if |a| == 0 then true
    else if |b| == 0 then false
    else if a[|a| - 1] == b[|b| - 1] then IsSubseq(a[..|a| - 1], b[..|b| - 1])
    else IsSubseq(a, b[..|b| - 1])
  }

  /** Appending to the right side keeps a subsequence a subsequence. */
  lemma {:induction false} SubseqAppend<T>(a: seq<T>, b: seq<T>, x: T)
    requires IsSubseq(a, b)
    ensures IsSubseq(a, b + [x])
    decreases |b|, 1
  {
    var bx := b + [x];
    assert bx[..|bx| - 1] == b;
    if |a| > 0 && a[|a| - 1] == x {
      SubseqDropLast(a, b);
    }
  }

  /** Dropping the last element of the left side keeps it a subsequence. */
  lemma {:induction false} SubseqDropLast<T>(a: seq<T>, b: seq<T>)
    requires |a| > 0 && IsSubseq(a, b)
    ensures IsSubseq(a[..|a| - 1], b)
    decreases |b|, 0
  {
    var a', b' := a[..|a| - 1], b[..|b| - 1];
    assert b == b' + [b[|b| - 1]];
    if a[|a| - 1] == b[|b| - 1] {
      SubseqAppend(a', b', b[|b| - 1]);
    } else {
      SubseqDropLast(a, b');
      SubseqAppend(a', b', b[|b| - 1]);
    }
  }

  /** `Array.prototype.filter`: the elements of `s` that satisfy `keep`, in order. */
  function Filter<T>(s: seq<T>, keep: T -> bool): (r: seq<T>)
    ensures |r| <= |s|
    ensures forall i :: 0 <= i < |r| ==> keep(r[i])
    ensures IsSubseq(r, s)
    decreases |s|
  {
    if |s| == 0 then []
    else
      var init, last := s[..|s| - 1], s[|s| - 1];
      var r' := Filter(init, keep);
      if keep(last) then
        assert (r' + [last])[..|r' + [last]| - 1] == r';
        assert s[..|s| - 1] == init;
        r' + [last]
      else
        SubseqAppend(r', init, last);
        assert init + [last] == s;
        r'
  }

  /** Filtering a sequence extended by one element: the filter of the front,
      followed by the element when it is kept. */
  lemma FilterSnoc<T>(init: seq<T>, last: T, keep: T -> bool)
    ensures Filter(init + [last], keep) == if keep(last) then Filter(init, keep) + [last] else Filter(init, keep)
  {
    var s := init + [last];
    assert s[..|s| - 1] == init && s[|s| - 1] == last;
  }

  /** The filtered sequence holds every kept element of `s` exactly as often as
      `s` does, and nothing else. */
  lemma {:induction false} FilterCounts<T>(s: seq<T>, keep: T -> bool, x: T)
    ensures multiset(Filter(s, keep))[x] == if keep(x) then multiset(s)[x] else 0
    ensures x in Filter(s, keep) <==> x in s && keep(x)
    decreases |s|
  {
    if |s| > 0 {
      var init := s[..|s| - 1];
      assert s == init + [s[|s| - 1]];
      FilterCounts(init, keep, x);
    }
  }

  /** A subsequence holds no element more often than the sequence it is taken from. */
  lemma {:induction false} SubseqCounts<T>(a: seq<T>, b: seq<T>, x: T)
    requires IsSubseq(a, b)
    ensures multiset(a)[x] <= multiset(b)[x]
    decreases |b|
  {
    if |a| > 0 {
      var b' := b[..|b| - 1];
      assert b == b' + [b[|b| - 1]];
      if a[|a| - 1] == b[|b| - 1] {
        var a' := a[..|a| - 1];
        assert a == a' + [a[|a| - 1]];
        SubseqCounts(a', b', x);
      } else {
        SubseqCounts(a, b', x);
      }
    }
  }

  /** `r` keeps every element of `s` that satisfies `keep` exactly as often as
      `s` holds it, and no other element. */
  ghost predicate KeepsExactly<T(!new)>(r: seq<T>, s: seq<T>, keep: T -> bool) {
    forall x :: multiset(r)[x] == if keep(x) then multiset(s)[x] else 0
  }

  /** The filter is the only subsequence that keeps exactly the wanted elements
      with their multiplicities. */
  lemma {:induction false} FilterUnique<T(!new)>(r: seq<T>, s: seq<T>, keep: T -> bool)
    requires IsSubseq(r, s) && KeepsExactly(r, s, keep)
    ensures r == Filter(s, keep)
    decreases |s|
  {
    if |s| == 0 {
    } else if |r| == 0 {
      assert multiset(Filter(s, keep)) == multiset{} by {
        forall x ensures multiset(Filter(s, keep))[x] == 0 {
          FilterCounts(s, keep, x);
        }
      }
    } else {
      var init, last := s[..|s| - 1], s[|s| - 1];
      var r', a := r[..|r| - 1], r[|r| - 1];
      assert s == init + [last] && r == r' + [a];
      if a == last {
        assert keep(last) && KeepsExactly(r', init, keep) by {
          UniqueStepKept(r', init, last, keep);
        }
        assert r' == Filter(init, keep) by {
          FilterUnique(r', init, keep);
        }
        assert Filter(s, keep) == Filter(init, keep) + [last] by {
          FilterSnoc(init, last, keep);
        }
      } else {
        assert !keep(last) && KeepsExactly(r, init, keep) by {
          SubseqCounts(r, init, last);
          UniqueStepDropped(r, init, last, keep);
        }
        assert r == Filter(init, keep) by {
          FilterUnique(r, init, keep);
        }
        assert Filter(s, keep) == Filter(init, keep) by {
          FilterSnoc(init, last, keep);
        }
      }
    }
  }

  /** The step of `FilterUnique` when the last elements match. */
  lemma UniqueStepKept<T(!new)>(r': seq<T>, init: seq<T>, last: T, keep: T -> bool)
    requires KeepsExactly(r' + [last], init + [last], keep)
    ensures keep(last) && KeepsExactly(r', init, keep)
  {
    assert multiset(r' + [last])[last] > 0;
    forall x ensures multiset(r')[x] == if keep(x) then multiset(init)[x] else 0 {
      assert multiset(r' + [last])[x] == multiset(r')[x] + multiset([last])[x];
      assert multiset(init + [last])[x] == multiset(init)[x] + multiset([last])[x];
    }
  }

  /** The step of `FilterUnique` when the last element of `s` is not matched. */
  lemma UniqueStepDropped<T(!new)>(r: seq<T>, init: seq<T>, last: T, keep: T -> bool)
    requires KeepsExactly(r, init + [last], keep)
    requires multiset(r)[last] <= multiset(init)[last]
    ensures !keep(last) && KeepsExactly(r, init, keep)
  {
    assert multiset(init + [last])[last] == multiset(init)[last] + 1;
    forall x ensures multiset(r)[x] == if keep(x) then multiset(init)[x] else 0 {
      assert multiset(init + [last])[x] == multiset(init)[x] + multiset([last])[x];
    }
  }


  /** The filter is empty exactly when no element is kept. */
  lemma FilterEmptyIff<T>(s: seq<T>, keep: T -> bool)
    ensures |Filter(s, keep)| == 0 <==> forall i :: 0 <= i < |s| ==> !keep(s[i])
  {
    var r := Filter(s, keep);
    forall i | 0 <= i < |s| && keep(s[i])
      ensures |r| > 0
    {
      FilterCounts(s, keep, s[i]);
    }
    if |r| > 0 {
      FilterCounts(s, keep, r[0]);
      var i :| 0 <= i < |s| && s[i] == r[0];
    }
  }

  /** Filtering distributes over concatenation. */
  lemma {:induction false} FilterConcat<T>(a: seq<T>, b: seq<T>, keep: T -> bool)
    ensures Filter(a + b, keep) == Filter(a, keep) + Filter(b, keep)
    decreases |b|
  {
    if |b| == 0 {
      assert a + b == a;
    } else {
      var b', x := b[..|b| - 1], b[|b| - 1];
      assert (a + b)[..|a + b| - 1] == a + b';
      assert (a + b)[|a + b| - 1] == x;
      FilterConcat(a, b', keep);
    }
  }

  /** Filtering with a predicate that every element satisfies changes nothing. */
  lemma {:induction false} FilterAllKept<T>(s: seq<T>, keep: T -> bool)
    requires forall i :: 0 <= i < |s| ==> keep(s[i])
    ensures Filter(s, keep) == s
    decreases |s|
  {
    if |s| > 0 {
      FilterAllKept(s[..|s| - 1], keep);
      assert s == s[..|s| - 1] + [s[|s| - 1]];
    }
  }

  /** No element occurs twice. */
  predicate NoDup<T(==)>(s: seq<T>) {
    forall i, j :: 0 <= i < j < |s| ==> s[i] != s[j]
  }

  /** Filtering a duplicate-free sequence leaves it duplicate-free. */
  lemma {:induction false} FilterNoDup<T>(s: seq<T>, keep: T -> bool)
    requires NoDup(s)
    ensures NoDup(Filter(s, keep))
    decreases |s|
  {
    if |s| > 0 {
      var init, last := s[..|s| - 1], s[|s| - 1];
      FilterNoDup(init, keep);
      if keep(last) {
        FilterCounts(init, keep, last);
        var r := Filter(init, keep) + [last];
        forall i, j | 0 <= i < j < |r|
          ensures r[i] != r[j]
        {
          if j == |r| - 1 {
            assert r[i] in Filter(init, keep);
          }
        }
      }
    }
  }

  /** The start index `Array.prototype.splice(start, 1)` uses on an array of
      length `len`: a negative start counts from the end, and every start is
      clamped into `0..len`. */
  function SpliceStart(len: nat, start: int): (k: nat)
    ensures k <= len
    ensures 0 <= start <= len ==> k == start
    ensures start > len ==> k == len
    ensures start < 0 ==> k == if len + start < 0 then 0 else len + start
  {
    if start < 0 then (if len + start < 0 then 0 else len + start)
    else if start > len then len
    else start
  }

  /** `s.splice(start, 1)` on a copy: removes the element at the clamped start
      index, or nothing when that index is past the end. */
  function SpliceOne<T>(s: seq<T>, start: int): (r: seq<T>)
    ensures var k := SpliceStart(|s|, start);
      && (k == |s| ==> r == s)
      && (k < |s| ==>
            && |r| == |s| - 1
            && (forall i :: 0 <= i < k ==> r[i] == s[i])
            && (forall i :: k <= i < |r| ==> r[i] == s[i + 1])
            && multiset(r) + multiset{s[k]} == multiset(s))
  {
    var k := SpliceStart(|s|, start);
    if k < |s| then
      assert s == s[..k] + [s[k]] + s[k + 1..];
      s[..k] + s[k + 1..]
    else s
  }
}

=== FILE: tag_lists.dfy ===
/** The tag-list operations the tag pickers share: lookup, removal and
    replacement by id, and the list of names. */
module TagLists {
  import opened Seqs
  import opened ProjectTypes

  /** `tags.some(t => t.id === id)`. */
  predicate HasId(tags: seq<Tag>, id: string) {
    exists i :: 0 <= i < |tags| && tags[i].id == id
  }

  function IdIsNot(id: string): Tag -> bool {
    (t: Tag) => t.id != id
  }

  /** `r` holds no entry with the id, and every other entry of `tags` exactly
      as often as `tags` does. */
  ghost predicate DropsId(r: seq<Tag>, tags: seq<Tag>, id: string) {
    forall t :: multiset(r)[t] == if t.id == id then 0 else multiset(tags)[t]
  }

  /** `tags.filter(t => t.id !== id)`: no entry with the id is left, every
      other entry stays as often as it occurred, and all keep their relative order. */
  function WithoutId(tags: seq<Tag>, id: string): (r: seq<Tag>)
    ensures !HasId(r, id)
    ensures DropsId(r, tags, id)
    ensures IsSubseq(r, tags)
  {
    var r := Filter(tags, IdIsNot(id));
    assert forall i :: 0 <= i < |r| ==> IdIsNot(id)(r[i]);
    forall t ensures multiset(r)[t] == if t.id == id then 0 else multiset(tags)[t] {
      FilterCounts(tags, IdIsNot(id), t);
    }
    r
  }

  /** The two clauses pin the removal down: any subsequence that drops exactly
      the entries with the id is the removal. */
  lemma WithoutIdUnique(r: seq<Tag>, tags: seq<Tag>, id: string)
    requires IsSubseq(r, tags) && DropsId(r, tags, id)
    ensures r == WithoutId(tags, id)
  {
    FilterUnique(r, tags, IdIsNot(id));
  }

  /** Removal by id drops exactly the entries with that id, and keeps every
      other entry as often as it occurred. */
  lemma WithoutIdMembers(tags: seq<Tag>, id: string, t: Tag)
    ensures t in WithoutId(tags, id) <==> t in tags && t.id != id
    ensures multiset(WithoutId(tags, id))[t] == if t.id == id then 0 else multiset(tags)[t]
  {
    FilterCounts(tags, IdIsNot(id), t);
  }

  /** Removing an id that does not occur changes nothing. */
  lemma WithoutAbsentId(tags: seq<Tag>, id: string)
    requires !HasId(tags, id)
    ensures WithoutId(tags, id) == tags
  {
    FilterAllKept(tags, IdIsNot(id));
  }

  /** Removal by id distributes over concatenation. */
  lemma WithoutIdConcat(a: seq<Tag>, b: seq<Tag>, id: string)
    ensures WithoutId(a + b, id) == WithoutId(a, id) + WithoutId(b, id)
  {
    FilterConcat(a, b, IdIsNot(id));
  }

  /** `tags.map(t => t.id === id ? tag : t)`. */
  function ReplaceId(tags: seq<Tag>, id: string, tag: Tag): (r: seq<Tag>)
    ensures |r| == |tags|
    ensures forall i :: 0 <= i < |tags| ==> r[i] == if tags[i].id == id then tag else tags[i]
  {
    if |tags| == 0 then []
    else [if tags[0].id == id then tag else tags[0]] + ReplaceId(tags[1..], id, tag)
  }

  /** `tags.map(t => t.name)`. */
  function Names(tags: seq<Tag>): (names: seq<string>)
    ensures |names| == |tags|
    ensures forall i :: 0 <= i < |tags| ==> names[i] == tags[i].name
  {
    if |tags| == 0 then [] else [tags[0].name] + Names(tags[1..])
  }

  /** Every tag's id is its name, the shape the tag service produces. */
  predicate IdsAreNames(tags: seq<Tag>) {
    forall i :: 0 <= i < |tags| ==> tags[i].id == tags[i].name
  }
}

=== FILE: tag_selector.dfy ===
/** The tag picker of a case: toggling, removing, deleting and creating tags,
    each applied to the selection at once and settled when the server answers. */
module TagSelector {
  import opened Wrappers
  import opened Seqs
  import opened Text
  import opened ProjectTypes
  import opened TagLists
  import TagService

  /** The picker's state: the selection its parent holds, the search box, the
      names being created and the ids being deleted. */
  datatype Selector = Selector(selected: seq<Tag>, search: string, creating: set<string>, deleting: set<string>)

  /** A settled handler: the state it leaves, whether the parent was asked to
      reload its tags, and the alert it raised, if any. */
  datatype Settled = Settled(state: Selector, refreshed: bool, alert: Option<string>)

  const DeleteFailedAlert: string := "刪除標籤失敗，但已從當前列表移除"
  const CreateFailedAlert: string := "創建標籤失敗，請重試"

  /** `handleSelectTag`: a selected tag is removed, with every entry sharing its
      id; an unselected one is appended. */
  function SelectTag(selected: seq<Tag>, tag: Tag): (r: seq<Tag>)
    ensures HasId(selected, tag.id) ==> !HasId(r, tag.id) && IsSubseq(r, selected)
    ensures HasId(selected, tag.id) ==> DropsId(r, selected, tag.id)
    ensures !HasId(selected, tag.id) ==> |r| == |selected| + 1 && r[..|selected|] == selected && r[|selected|] == tag
  {
    if HasId(selected, tag.id) then WithoutId(selected, tag.id) else selected + [tag]
  }

  /** Selecting an unselected tag twice gives the selection back. */
  lemma SelectTwiceRestores(selected: seq<Tag>, tag: Tag)
    requires !HasId(selected, tag.id)
    ensures SelectTag(SelectTag(selected, tag), tag) == selected
  {
    var once := selected + [tag];
    assert once[|selected|].id == tag.id;
    WithoutIdConcat(selected, [tag], tag.id);
    WithoutAbsentId(selected, tag.id);
    assert WithoutId([tag], tag.id) == [] by {
      FilterCounts([tag], IdIsNot(tag.id), tag);
    }
  }

  /** Choosing an entry of the list: ignored while that tag is being deleted. */
  function ChooseListed(s: Selector, tag: Tag): (r: Selector)
    ensures tag.id in s.deleting ==> r == s
    ensures tag.id !in s.deleting ==> r == s.(selected := SelectTag(s.selected, tag))
  {
    if tag.id in s.deleting then s else s.(selected := SelectTag(s.selected, tag))
  }

  /** `handleRemoveTag`: drops every entry with the id, keeping the others in
      order and as often as they occurred. */
  function RemoveTag(selected: seq<Tag>, id: string): (r: seq<Tag>)
    ensures !HasId(r, id) && IsSubseq(r, selected)
    ensures DropsId(r, selected, id)
  {
    WithoutId(selected, id)
  }

  /** The synchronous part of `handleDeleteTag`: the id is marked as being
      deleted and leaves the selection at once. */
  function BeginDelete(s: Selector, tag: Tag): (r: Selector)
    ensures r.deleting == s.deleting + {tag.id}
    ensures !HasId(r.selected, tag.id) && IsSubseq(r.selected, s.selected)
    ensures DropsId(r.selected, s.selected, tag.id)
    ensures r.search == s.search && r.creating == s.creating
  {
    s.(selected := WithoutId(s.selected, tag.id), deleting := s.deleting + {tag.id})
  }

  /** The rest of `handleDeleteTag` once the server answered: the selection is
      kept either way; success asks for a reload, failure alerts; the id is no
      longer being deleted. */
  function FinishDelete(s: Selector, tag: Tag, answer: Result<(), Failure>): (r: Settled)
    ensures r.state.selected == s.selected
    ensures r.state.deleting == s.deleting - {tag.id}
    ensures r.refreshed <==> answer.Ok?
    ensures r.alert.Some? <==> answer.Err?
  {
    var state := s.(deleting := s.deleting - {tag.id});
    match answer
    case Ok(_) => Settled(state, true, None)
    case Err(_) => Settled(state, false, Some(DeleteFailedAlert))
  }

  /** A deleted tag stays out of the selection whether or not the server delete
      succeeds, and the deleting mark is gone afterwards. */
  lemma DeleteRemovalSticks(s: Selector, tag: Tag, answer: Result<(), Failure>)
    ensures var r := FinishDelete(BeginDelete(s, tag), tag, answer).state;
      && !HasId(r.selected, tag.id)
      && r.selected == WithoutId(s.selected, tag.id)
      && r.deleting == s.deleting - {tag.id}
  {
  }

  /** The whole of `handleDeleteTag` over the tag service: the tag leaves the
      selection for good, a successful call asks for a reload, a failed one
      raises the fixed alert instead, and the deleting mark is gone. */
  lemma DeleteThroughService(s: Selector, tag: Tag, api: Result<(), Failure>)
    ensures var r := FinishDelete(BeginDelete(s, tag), tag, TagService.DeleteTag(tag.name, api));
      && r.state.selected == WithoutId(s.selected, tag.id)
      && r.state.deleting == s.deleting - {tag.id}
      && (r.refreshed <==> api.Ok?)
      && r.alert == if api.Ok? then None else Some(DeleteFailedAlert)
  {
  }

  /** `tag.name.toLowerCase() === name.toLowerCase()`, with `lower` standing for
      `toLowerCase`. */
  predicate SameName(t: Tag, name: string, lower: string -> string) {
    lower(t.name) == lower(name)
  }

  /** The first available tag whose name equals `name` up to case. */
  function FindByName(available: seq<Tag>, name: string, lower: string -> string): (r: Option<nat>)
    ensures r.None? <==> forall i :: 0 <= i < |available| ==> !SameName(available[i], name, lower)
    ensures r.Some? ==> r.value < |available| && SameName(available[r.value], name, lower)
                        && forall i :: 0 <= i < r.value ==> !SameName(available[i], name, lower)
  {
    if |available| == 0 then None
    else if SameName(available[0], name, lower) then Some(0)
    else
      match FindByName(available[1..], name, lower)
      case None => None
      case Some(i) => Some(i + 1)
  }

  /** Which way `handleCreateTag` goes. */
  datatype CreatePlan = Ignore | Reuse(tag: Tag) | Create(name: string)

  /** Decides the path of `handleCreateTag`: nothing for a blank search or a name
      already being created, the first case-insensitive match when there is one,
      a new tag otherwise. */
  function Plan(s: Selector, available: seq<Tag>, lower: string -> string): (p: CreatePlan)
    ensures p.Ignore? <==> Trim(s.search) == [] || Trim(s.search) in s.creating
    ensures p.Reuse? ==> exists i :: 0 <= i < |available| && available[i] == p.tag
                                     && SameName(p.tag, Trim(s.search), lower)
                                     && forall k :: 0 <= k < i ==> !SameName(available[k], Trim(s.search), lower)
    ensures p.Create? ==> && p.name == Trim(s.search)
                          && forall i :: 0 <= i < |available| ==> !SameName(available[i], p.name, lower)
  {
    var name := Trim(s.search);
    if name == [] || name in s.creating then Ignore
    else
      match FindByName(available, name, lower)
      case Some(i) => Reuse(available[i])
      case None => Create(name)
  }

  /** The selection right after the synchronous part of a new-tag create: the
      temporary tag is appended, its name marked as being created, the search
      cleared. */
  function Optimistic(s: Selector, name: string, tempId: string): (r: Selector)
    ensures r.selected == s.selected + [Tag(tempId, name)]
    ensures r.creating == s.creating + {name} && r.search == [] && r.deleting == s.deleting
  {
    s.(selected := s.selected + [Tag(tempId, name)], creating := s.creating + {name}, search := [])
  }

  /** `handleCreateTag` from start to settlement; `tempId` stands for the
      `temp-<time>` id and `answer` for the parent's create call. The settling
      update is computed from the selection the handler started with. */
  function CreateTag(s: Selector, available: seq<Tag>, lower: string -> string,
                     tempId: string, answer: Result<Tag, Failure>): (r: Settled)
    ensures !r.refreshed
    ensures Plan(s, available, lower).Ignore? ==> r == Settled(s, false, None)
    ensures Plan(s, available, lower).Reuse? ==>
      var t := Plan(s, available, lower).tag;
      && r.state == s.(selected := r.state.selected, search := [])
      && r.alert.None?
      && (HasId(s.selected, t.id) ==> r.state.selected == s.selected)
      && (!HasId(s.selected, t.id) ==> r.state.selected == s.selected + [t])
    ensures Plan(s, available, lower).Create? ==>
      && r.state.creating == s.creating && r.state.search == [] && r.state.deleting == s.deleting
      && (answer.Ok? ==> r.state.selected == WithoutId(s.selected, tempId) + [answer.value] && r.alert.None?)
      && (answer.Err? ==> r.state.selected == WithoutId(s.selected, tempId) && r.alert == Some(CreateFailedAlert))
  {
    match Plan(s, available, lower)
    case Ignore => Settled(s, false, None)
    case Reuse(t) =>
      var selected := if HasId(s.selected, t.id) then s.selected else s.selected + [t];
      Settled(s.(selected := selected, search := []), false, None)
    case Create(name) =>
      var pending := Optimistic(s, name, tempId);
      var base := WithoutId(s.selected, tempId);
      var settled := pending.(creating := pending.creating - {name});
      match answer
      case Ok(created) => Settled(settled.(selected := base + [created]), false, None)
      case Err(_) => Settled(settled.(selected := base), false, Some(CreateFailedAlert))
  }

  /** With a fresh temporary id, a successful create leaves the old selection
      followed by the server's tag, and no temporary tag. */
  lemma CreateSuccessAppends(s: Selector, available: seq<Tag>, lower: string -> string, tempId: string, created: Tag)
    requires Plan(s, available, lower).Create?
    requires !HasId(s.selected, tempId)
    ensures CreateTag(s, available, lower, tempId, Ok(created)).state.selected == s.selected + [created]
  {
    WithoutAbsentId(s.selected, tempId);
  }

  /** With a fresh temporary id, a failed create gives back the state it started
      from, with the search box cleared. */
  lemma CreateFailureRollsBack(s: Selector, available: seq<Tag>, lower: string -> string, tempId: string, err: Failure)
    requires Plan(s, available, lower).Create?
    requires !HasId(s.selected, tempId)
    ensures CreateTag(s, available, lower, tempId, Err(err)).state == s.(search := [])
  {
    WithoutAbsentId(s.selected, tempId);
  }

  /** A case-insensitive match never creates anything, and the selection holds
      the matching tag's id afterwards. */
  lemma ReuseNeverCreates(s: Selector, available: seq<Tag>, lower: string -> string, tempId: string, answer: Result<Tag, Failure>)
    requires Plan(s, available, lower).Reuse?
    ensures var r := CreateTag(s, available, lower, tempId, answer).state;
      && r.creating == s.creating
      && HasId(r.selected, Plan(s, available, lower).tag.id)
      && |r.selected| <= |s.selected| + 1
  {
    var t := Plan(s, available, lower).tag;
    var r := CreateTag(s, available, lower, tempId, answer).state;
    if !HasId(s.selected, t.id) {
      assert r.selected[|s.selected|] == t;
    }
  }

  /** `filteredTags`: the available tags whose lower-cased name contains the
      lower-cased search, in their order. */
  function MatchesSearch(search: string, lower: string -> string): Tag -> bool {
    (t: Tag) => Contains(lower(t.name), lower(search))
  }

  function FilteredTags(available: seq<Tag>, search: string, lower: string -> string): (r: seq<Tag>)
    ensures IsSubseq(r, available)
    ensures forall i :: 0 <= i < |r| ==> Contains(lower(r[i].name), lower(search))
    ensures KeepsExactly(r, available, MatchesSearch(search, lower))
  {
    var r := Filter(available, MatchesSearch(search, lower));
    assert forall i :: 0 <= i < |r| ==> MatchesSearch(search, lower)(r[i]);
    forall t ensures multiset(r)[t] == if MatchesSearch(search, lower)(t) then multiset(available)[t] else 0 {
      FilterCounts(available, MatchesSearch(search, lower), t);
    }
    r
  }

  /** An available tag is listed exactly when its lower-cased name contains the
      lower-cased search. */
  lemma FilteredTagsMembers(available: seq<Tag>, search: string, lower: string -> string, t: Tag)
    ensures t in FilteredTags(available, search, lower) <==> t in available && Contains(lower(t.name), lower(search))
  {
    FilterCounts(available, MatchesSearch(search, lower), t);
  }

  /** An empty search lists every available tag. */
  lemma EmptySearchListsAll(available: seq<Tag>, lower: string -> string)
    requires lower([]) == []
    ensures FilteredTags(available, [], lower) == available
  {
    forall i | 0 <= i < |available|
      ensures MatchesSearch([], lower)(available[i])
    {
      assert OccursAt(lower(available[i].name), [], 0);
    }
    FilterAllKept(available, MatchesSearch([], lower));
  }

  /** `showCreateOption`. */
  predicate ShowCreateOption(search: string, available: seq<Tag>, lower: string -> string) {
    Trim(search) != [] && forall i :: 0 <= i < |available| ==> !SameName(available[i], Trim(search), lower)
  }

  /** The create option is offered exactly when creating would make a new tag,
      unless that name is already being created. */
  lemma ShowCreateOptionIffCreates(s: Selector, available: seq<Tag>, lower: string -> string)
    ensures ShowCreateOption(s.search, available, lower) && Trim(s.search) !in s.creating
            <==> Plan(s, available, lower).Create?
  {
    var p := Plan(s, available, lower);
    if p.Reuse? {
      var i :| 0 <= i < |available| && available[i] == p.tag && SameName(p.tag, Trim(s.search), lower);
    }
  }
}

=== FILE: tag_service.dfy ===
/** The tag service: the remote API knows tags only by name, and the service
    turns each name into a tag whose id is that name. Failures pass through. */
module TagService {
  import opened Wrappers
  import opened ProjectTypes
  import opened TagLists

  /** The tag the service makes of a name. */
  function TagOf(name: string): (t: Tag)
    ensures t.id == name && t.name == name
  {
    Tag(name, name)
  }

  /** `getAllTags`, given what the API answered. */
  function GetAllTags(answer: Result<seq<string>, Failure>): (r: Result<seq<Tag>, Failure>)
    ensures r.Err? <==> answer.Err?
    ensures answer.Err? ==> r.error == answer.error
    ensures answer.Ok? ==>
      && |r.value| == |answer.value|
      && forall i :: 0 <= i < |answer.value| ==> r.value[i] == TagOf(answer.value[i])
  {
    match answer
    case Err(e) => Err(e)
    case Ok(names) => Ok(TagsOf(names))
  }

  function TagsOf(names: seq<string>): (tags: seq<Tag>)
    ensures |tags| == |names|
    ensures forall i :: 0 <= i < |names| ==> tags[i] == TagOf(names[i])
  {
    if |names| == 0 then [] else [TagOf(names[0])] + TagsOf(names[1..])
  }

  /** The names of the loaded tags are exactly the names the API sent, in order,
      and every loaded tag has its name as id. */
  lemma GetAllTagsRoundTrip(names: seq<string>)
    ensures var r := GetAllTags(Ok(names));
      r.Ok? && Names(r.value) == names && IdsAreNames(r.value)
  {
  }

  /** `createTag`: the tag is built from the name the API hands back, which need
      not be the requested one. */
  function CreateTag(requested: string, answer: Result<string, Failure>): (r: Result<Tag, Failure>)
    ensures r.Err? <==> answer.Err?
    ensures answer.Err? ==> r.error == answer.error
    ensures answer.Ok? ==> r.value.id == answer.value && r.value.name == answer.value
  {
    match answer
    case Err(e) => Err(e)
    case Ok(created) => Ok(TagOf(created))
  }

  /** `deleteTag`: nothing comes back but the API's failure, unchanged. */
  function DeleteTag(name: string, answer: Result<(), Failure>): (r: Result<(), Failure>)
    ensures r.Ok? <==> answer.Ok?
    ensures answer.Err? ==> r.error == answer.error
  {
    answer
  }

  /** Every tag the service hands out has its name as id. */
  lemma ServiceTagsIdsAreNames(requested: string, answer: Result<string, Failure>, all: Result<seq<string>, Failure>)
    ensures CreateTag(requested, answer).Ok? ==> CreateTag(requested, answer).value.id == CreateTag(requested, answer).value.name
    ensures GetAllTags(all).Ok? ==> IdsAreNames(GetAllTags(all).value)
  {
  }
}

=== FILE: text.dfy ===
/** The JavaScript string primitives the components rely on, over `seq<char>`. */
module Text {

  /** The code points of JavaScript's WhiteSpace and LineTerminator productions:
      the set the regular-expression class `\s` matches and the set
      `String.prototype.trim` strips. */
  predicate IsJsSpace(c: char) {
    var n := c as int;
    || n == 0x09 || n == 0x0A || n == 0x0B || n == 0x0C || n == 0x0D
    || n == 0x20 || n == 0xA0 || n == 0x1680
    || (0x2000 <= n <= 0x200A)
    || n == 0x2028 || n == 0x2029 || n == 0x202F || n == 0x205F
    || n == 0x3000 || n == 0xFEFF
  }

  /** Number of leading white-space characters. */
  function LeadingSpaces(s: string): (n: nat)
    ensures n <= |s|
    ensures forall k :: 0 <= k < n ==> IsJsSpace(s[k])
    ensures n == |s| || !IsJsSpace(s[n])
  {
    if |s| == 0 || !IsJsSpace(s[0]) then 0 else 1 + LeadingSpaces(s[1..])
  }

  /** Number of trailing white-space characters. */
  function TrailingSpaces(s: string): (n: nat)
    ensures n <= |s|
    ensures forall k :: |s| - n <= k < |s| ==> IsJsSpace(s[k])
    ensures n == |s| || !IsJsSpace(s[|s| - n - 1])
  {
    if |s| == 0 || !IsJsSpace(s[|s| - 1]) then 0 else 1 + TrailingSpaces(s[..|s| - 1])
  }

  /** `r` is the slice of `s` starting at `i`, and everything outside it is white space. */
  ghost predicate TrimmedAt(s: string, r: string, i: int) {
    && 0 <= i <= |s| - |r| && r == s[i..i + |r|]
    && (forall k :: 0 <= k < i ==> IsJsSpace(s[k]))
    && (forall k :: i + |r| <= k < |s| ==> IsJsSpace(s[k]))
  }

  /** `String.prototype.trim`. */
  function Trim(s: string): (r: string)
    ensures |r| <= |s|
    ensures exists i :: TrimmedAt(s, r, i)
    ensures r == [] || (!IsJsSpace(r[0]) && !IsJsSpace(r[|r| - 1]))
    ensures r == [] <==> forall k :: 0 <= k < |s| ==> IsJsSpace(s[k])
  {
    var i := LeadingSpaces(s);
    var rest := s[i..];
    var j := TrailingSpaces(rest);
    var r := s[i..i + |rest| - j];
    forall k | i + |r| <= k < |s|
      ensures IsJsSpace(s[k])
    {
      assert s[k] == rest[k - i];
    }
    assert TrimmedAt(s, r, i);
    r
  }

  /** Trimming a string that neither starts nor ends with white space changes nothing. */
  lemma TrimUnpadded(s: string)
    requires s == [] || (!IsJsSpace(s[0]) && !IsJsSpace(s[|s| - 1]))
    ensures Trim(s) == s
  {
  }

  /** `needle` occurs in `hay` starting at index `i`. */
  predicate OccursAt(hay: string, needle: string, i: int) {
    0 <= i <= |hay| - |needle| && hay[i..i + |needle|] == needle
  }

  /** `hay.includes(needle)`. */
  predicate Contains(hay: string, needle: string) {
    exists i | 0 <= i <= |hay| - |needle| :: OccursAt(hay, needle, i)
  }

  /** Containment is transitive. */
  lemma ContainsTrans(a: string, b: string, c: string)
    requires Contains(a, b) && Contains(b, c)
    ensures Contains(a, c)
  {
    var i :| OccursAt(a, b, i);
    assert OccursAt(a, b, i);
    var j :| OccursAt(b, c, j);
    assert OccursAt(b, c, j);
    forall k | 0 <= k < |c|
      ensures a[i + j + k] == c[k]
    {
      assert c[k] == b[j + k] == a[i + j + k];
    }
    assert a[i + j..i + j + |c|] == c;
    assert OccursAt(a, c, i + j);
  }

  /** A non-empty needle can only be found if its first character occurs. */
  lemma ContainsFirstChar(hay: string, needle: string)
    requires |needle| > 0 && Contains(hay, needle)
    ensures needle[0] in hay
  {
    var i :| OccursAt(hay, needle, i);
    assert OccursAt(hay, needle, i);
    assert hay[i] == needle[0];
  }

  /** Index of the first occurrence of `c` in `s`. */
  function IndexOf(s: string, c: char): (i: nat)
    requires c in s
    ensures i < |s| && s[i] == c
    ensures forall k :: 0 <= k < i ==> s[k] != c
  {
    if s[0] == c then 0 else 1 + IndexOf(s[1..], c)
  }

  /** `parts.join(sep)` for a one-character separator. */
  function Join(parts: seq<string>, sep: char): string
  {
    if |parts| == 0 then ""
    else if |parts| == 1 then parts[0]
    else parts[0] + [sep] + Join(parts[1..], sep)
  }

  /** `s.split(sep)` for a one-character separator: never empty, no piece holds
      the separator, and joining the pieces gives back `s`. */
  function Split(s: string, sep: char): (parts: seq<string>)
    ensures |parts| >= 1
    ensures forall k :: 0 <= k < |parts| ==> sep !in parts[k]
    ensures Join(parts, sep) == s
    decreases |s|
  {
    if sep !in s then [s]
    else
      var i := IndexOf(s, sep);
      var rest := Split(s[i + 1..], sep);
      assert s == s[..i] + [sep] + s[i + 1..];
      assert ([s[..i]] + rest)[1..] == rest;
      [s[..i]] + rest
  }

  /** The first separator of `a + [sep] + b`, when `a` holds none, ends `a`. */
  lemma IndexOfAfter(a: string, sep: char, b: string)
    requires sep !in a
    ensures IndexOf(a + [sep] + b, sep) == |a|
  {
    var s := a + [sep] + b;
    assert s[|a|] == sep;
    assert forall k :: 0 <= k < |a| ==> s[k] == a[k];
  }

  /** Splitting the join of separator-free pieces gives the pieces back. */
  lemma {:induction false} SplitJoin(parts: seq<string>, sep: char)
    requires |parts| >= 1
    requires forall k :: 0 <= k < |parts| ==> sep !in parts[k]
    ensures Split(Join(parts, sep), sep) == parts
    decreases |parts|
  {
    if |parts| > 1 {
      var head, rest := parts[0], parts[1..];
      var tail := Join(rest, sep);
      var s := Join(parts, sep);
      assert s == head + [sep] + tail;
      IndexOfAfter(head, sep, tail);
      assert s[|head|] == sep;
      SplitStep(s, sep);
      assert s[..|head|] == head;
      assert s[|head| + 1..] == tail;
      SplitJoin(rest, sep);
      assert [head] + rest == parts;
    }
  }

  /** One step of a split: the piece before the first separator, then the
      split of the rest. */
  lemma SplitStep(s: string, sep: char)
    requires sep in s
    ensures var i := IndexOf(s, sep);
      Split(s, sep) == [s[..i]] + Split(s[i + 1..], sep)
  {
  }

  /** The text after the first separator occurs in the string. */
  lemma RestOccurs(s: string, i: nat)
    requires i < |s|
    ensures Contains(s, s[i + 1..])
  {
    assert s[i + 1..i + 1 + |s[i + 1..]|] == s[i + 1..];
    assert OccursAt(s, s[i + 1..], i + 1);
  }

  /** Every piece of a split is a substring of the split string. */
  lemma {:induction false} SplitPiecesContained(s: string, sep: char, k: nat)
    requires k < |Split(s, sep)|
    ensures Contains(s, Split(s, sep)[k])
    decreases |s|
  {
    if sep !in s {
      assert OccursAt(s, s, 0);
    } else {
      var i := IndexOf(s, sep);
      var rest := s[i + 1..];
      SplitStep(s, sep);
      if k == 0 {
        assert s[0..|s[..i]|] == s[..i];
        assert OccursAt(s, s[..i], 0);
      } else {
        var piece := Split(rest, sep)[k - 1];
        assert Split(s, sep)[k] == piece;
        SplitPiecesContained(rest, sep, k - 1);
        RestOccurs(s, i);
        ContainsTrans(s, rest, piece);
      }
    }
  }

  /** `s.length`: the number of UTF-16 code units, two for each code point
      outside the Basic Multilingual Plane. */
  function Utf16Length(s: string): (n: nat)
    ensures |s| <= n <= 2 * |s|
  {
    if |s| == 0 then 0
    else (if s[0] as int > 0xFFFF then 2 else 1) + Utf16Length(s[1..])
  }
}

=== FILE: user_display.dfy ===
/** The header's user badge: the initials and the name shown for the signed-in
    user. */
module UserDisplay {
  import opened Wrappers
  import opened Text
  import opened Identity

  const FallbackInitial: string := "U"
  const FallbackName: string := "使用者"

  /** `getUserInitials`; `upper` stands for `toUpperCase`. */
  function Initials(user: Option<User>, upper: string -> string): (r: string)
    ensures user.None? ==> r == FallbackInitial
    ensures user.Some? && HasDisplayName(user.value) ==> r == upper([user.value.displayName.value[0]])
    ensures user.Some? && !HasDisplayName(user.value) && Truthy(user.value.email) ==> r == upper([user.value.email.value[0]])
    ensures user.Some? && !HasDisplayName(user.value) && !Truthy(user.value.email) ==> r == FallbackInitial
  {
    match user
    case None => FallbackInitial
    case Some(u) =>
      if HasDisplayName(u) then upper([u.displayName.value[0]])
      else if Truthy(u.email) then upper([u.email.value[0]])
      else FallbackInitial
  }

  /** The part of an address before its first `@`: `email.split('@')[0]`. */
  function LocalPart(email: string): (r: string)
    ensures '@' !in r
    ensures |r| <= |email| && r == email[..|r|]
    ensures |r| < |email| ==> email[|r|] == '@'
  {
    var parts := Split(email, '@');
    if '@' in email then
      assert parts[0] == email[..IndexOf(email, '@')];
      parts[0]
    else
      parts[0]
  }

  /** `getUserDisplayName`. */
  function DisplayName(user: Option<User>): (r: string)
    ensures user.None? ==> r == []
    ensures user.Some? && HasDisplayName(user.value) ==> r == user.value.displayName.value
    ensures user.Some? && !HasDisplayName(user.value) ==>
      r == if user.value.email.Some? && LocalPart(user.value.email.value) != [] then LocalPart(user.value.email.value) else FallbackName
    ensures user.Some? ==> r != []
  {
    match user
    case None => []
    case Some(u) =>
      if HasDisplayName(u) then u.displayName.value
      else
        var local := if u.email.Some? then LocalPart(u.email.value) else [];
        if local != [] then local else FallbackName
  }

  /** The badge's initial is the first character of the name shown beside it,
      whenever that name comes from the user's display name or address. */
  lemma InitialsMatchDisplayName(user: Option<User>, upper: string -> string)
    requires user.Some?
    requires HasDisplayName(user.value) || (user.value.email.Some? && LocalPart(user.value.email.value) != [])
    ensures Initials(user, upper) == upper([DisplayName(user)[0]])
  {
    var u := user.value;
    if !HasDisplayName(u) {
      var local := LocalPart(u.email.value);
      assert local[0] == u.email.value[0];
    }
  }

  /** The local part of `local@domain` is `local`, whatever the domain holds. */
  lemma LocalPartOfAddress(local: string, domain: string)
    requires '@' !in local
    ensures LocalPart(local + "@" + domain) == local
  {
    var email := local + "@" + domain;
    assert email[|local|] == '@';
  }

  /** Without a display name, a user with address `local@domain` is shown as
      `local`; an address that is empty or starts with `@` falls back to the
      generic name. */
  lemma NameFromAddress(u: User, local: string, domain: string)
    requires !HasDisplayName(u) && '@' !in local
    requires u.email == Some(local + "@" + domain)
    ensures DisplayName(Some(u)) == if local == [] then FallbackName else local
  {
    LocalPartOfAddress(local, domain);
  }

  /** An empty address also gives the generic name. */
  lemma EmptyAddressFallsBack(u: User)
    requires !HasDisplayName(u) && (u.email.None? || u.email == Some([]))
    ensures DisplayName(Some(u)) == FallbackName
  {
  }
}

=== FILE: wrappers.dfy ===
/** Failure-compatible result types shared by every component model. */
module Wrappers {

  /** A value that may be absent (JavaScript `null` / `undefined`). */
  datatype Option<+T> = None | Some(value: T) {
    predicate IsFailure() { None? }

    function PropagateFailure<U>(): Option<U>
      requires None?
    {
      None
    }

    function Extract(): T
      requires Some?
    {
      value
    }

    function GetOr(default: T): T {
      match this
      case Some(v) => v
      case None => default
    }
  }

  /** The settled value of a promise: resolved with a value or rejected with an error. */
  datatype Result<+R, +E> = Ok(value: R) | Err(error: E) {
    predicate IsFailure() { Err? }

    function PropagateFailure<U>(): Result<U, E>
      requires Err?
    {
      Err(error)
    }

    function Extract(): R
      requires Ok?
    {
      value
    }
  }

  /** A rejection raised by the remote API or the identity provider: its `message`. */
  datatype Failure = Failure(message: string)
}
